=== FILE: README.md ===
# student-reg: a Dafny model of the student registry core

student-reg keeps a PostgreSQL table of students. Each row has an id, first and last name,
a unique email, and an optional phone, age and address, plus created/updated timestamps.
Two front-ends write to the table:

* the admin command line (`admin_cli/students.py`) sends raw SQL. It strips names. It strips
  and lower-cases emails. It lists oldest first and searches names and email.
* the HTTP API (`app/api/routes_students.py`, over `app/services/student_service.py`, the ORM
  model `app/models/student.py` and the request/response schemas `app/schemas/student.py`).
  It validates payloads, normalises emails, pre-checks email uniqueness, and lists newest
  first. Its search also covers phone and address.

The model is functional. The table is an immutable value `Table(rows, nextId)`. Every statement
is a function from a table to a result and, for writes, a new table.

| file | module | what it holds |
|---|---|---|
| `optional.dfy` | `Optional` | `Option`, `Result` and `Field` (a value that is left unset or set) |
| `text.dfy` | `Text` | Python `str.strip()` over ASCII whitespace, ASCII `lower()`, substring containment |
| `like.dfy` | `Like` | SQL `LIKE`/`ILIKE` with `%`, `_` and `\` escapes |
| `student_table.dfy` | `StudentTable` | the `students` table: column widths, NOT NULL, UNIQUE(email), INSERT/UPDATE/DELETE |
| `table_query.dfy` | `TableQuery` | `WHERE`, `ORDER BY id [DESC]`, `LIMIT`/`OFFSET` |
| `schemas.dfy` | `Schemas` | the pydantic models and their field validators |
| `student_service.dfy` | `StudentService` | the ORM service functions |
| `student_routes.dfy` | `StudentRoutes` | the FastAPI handlers, with status codes |
| `admin_students.dfy` | `AdminStudents` | the admin command-line data functions |
| `front_ends.dfy` | `FrontEnds` | facts relating the two front-ends over one table |

Modelling decisions:

* **Store writes check constraints in PostgreSQL's order.**
  * A value longer than its `VARCHAR` width, or an `age` outside 32-bit `INTEGER`, gives `DataError`.
    (PostgreSQL instead truncates a value whose excess characters are all spaces; see "Left out".)
  * Then a NULL in a NOT NULL column gives `NotNullViolation`.
  * Then an email held by another row gives `UniqueViolation`.
  * An UPDATE of a missing id touches nothing.
  * `WellFormed` is the table invariant: rows are keyed by id, ids lie below `nextId`, values
    fit their columns, and emails are unique. Every write preserves it.
* **The two steps of an HTTP create or update see two tables.** The email pre-check reads
  `atCheck`. The write lands on `atWrite`. A concurrent writer can change the table in between;
  the sequential case is `atCheck == atWrite`. `CreateWithoutRace` and `UpdateWithoutRace`
  show that in the sequential case the database never refuses for a taken email what the
  pre-check let through. In the model, a value too long for its column is still refused, as a 500;
  see "Left out" for why the program's email validator keeps such an email from reaching the insert.
* **ORM updates only write what the payload sets.** `payload.model_dump(exclude_unset=True)` is
  modelled with `Field`. `Unset` keeps the column. `Set(None)` writes NULL, which pydantic lets
  through for the names and the NOT NULL columns then refuse.
* **`StudentUpdate` declares no `email` field.** The PATCH handler still reads `payload.email`.
  As the schema stands, that read of an undeclared attribute fails before either email branch
  runs. The model instead makes the patch email a separate optional input to
  `StudentRoutes.Update`, and models the handler's logic for a payload that carries an email.
* **Search patterns are real patterns.** The query is pasted into `%q%` without escaping, so
  `%`, `_` and `\` in a query are wildcards (`Like.UnderscoreIsWildcard`). For a query without
  them, the search is case-insensitive containment (`Like.ILikeIsContainment`).
* **Several external facts are inputs.**
  * The admin key check (`require_admin`) is a boolean.
  * The `EmailStr` verdict is a boolean. The email is passed on unchanged (see "Left out").
  * The clock is a number `now`, which is both timestamps on insert and `updated_at` on an ORM update.
* **The command line's raw `UPDATE` leaves `updated_at` unchanged.** The `onupdate` hook belongs
  to the ORM, and no database trigger is part of this model.

Behaviours of the code that the model keeps as written:

* In the PATCH handler's logic, for a payload that carries an email: an email equal to the stored
  one after normalisation returns the stored record at once, and other fields sent with it are
  **not** applied (`StudentRoutes.SameEmailSkipsOtherFields`).
* The command line's create does not reject blank names or a blank email. It stores them as
  the empty string (`AdminStudents.CreateStudent`). Such a row then fails the API's output schema
  (`FrontEnds.CliBlankNameFailsOutputSchema`).
* The command line searches first name, last name and email with the query unstripped. The API
  strips the query and also searches phone and address.
* In the PATCH handler's logic, for a payload that carries an email (or none, were the email
  field declared): a name sent as `null` reaches the NOT NULL refusal, an `IntegrityError` like
  the unique one, which the handler answers 409 "Email already exists"
  (`StudentRoutes.NullNameIsConflict`).

## Model

| member | source | states |
|---|---|---|
| Text.Strip | admin_cli/students.py:14 | the result is the input with leading and trailing whitespace removed: it has no whitespace at either end, the input is it padded on both sides by whitespace only, and it is empty exactly when the input is all whitespace |
| Text.StripOfStripped | app/api/routes_students.py:13-14 | stripping text that has no outer whitespace leaves it unchanged |
| Text.LowerIsLower | app/api/routes_students.py:13-14 | lower-cased text has no upper-case ASCII letter, and text that already has none is left unchanged |
| Text.LowerKeepsStripped | app/api/routes_students.py:13-14 | lower-casing text with no outer whitespace keeps it that way, so strip-then-lower is stable |
| Text.LowerKeepsPads | app/api/routes_students.py:13-14 | if text is another padded by whitespace, the lower-cased text is the lower-cased other padded by the same whitespace |
| Like.ILikeIsContainment | app/services/student_service.py:32-42 | for a query with no `%`, `_` or `\`, `ILIKE '%q%'` holds exactly when the lower-cased text contains the lower-cased query |
| Like.UnderscoreIsWildcard | app/services/student_service.py:32 | because the query is not escaped, `_` in a query matches any character: `%_%` matches exactly the non-empty texts, including those that contain no underscore |
| Like.PercentMatchesAll | app/services/student_service.py:32 | `%` matches every string, and so does the pattern `%%` built from an empty query |
| StudentTable.Insert | app/models/student.py:10-26 | an INSERT fails exactly when a value is too long for its column, a NOT NULL column is NULL, or the email is taken, checked in that order (DataError, NotNullViolation and UniqueViolation exactly in the first, second and last case). On failure nothing changes. On success one row is added under the next id, with the given values and both timestamps set to now, and the table invariant holds |
| StudentTable.Update | app/models/student.py:10-26 | an UPDATE of a missing id reports no row; otherwise it fails exactly on a too-long value (a DataError exactly then), a NULL name or email (a NotNullViolation exactly when the values fit), or an email held by another row. On success only that row changes: set columns take the new values, the others and `created_at` are kept, `updated_at` is refreshed only when asked, and the invariant holds |
| StudentTable.Delete | app/models/student.py:7-26 | a DELETE by id removes exactly that row (count 1) or nothing (count 0), leaves every other row as it was, and keeps the invariant |
| StudentTable.EmptyTableWellFormed | app/models/student.py:7-26 | a new table, empty with the id sequence at 1, satisfies the table invariant |
| TableQuery.Ordered | app/services/student_service.py:26-28 | `SELECT … WHERE f ORDER BY id` returns each selected row exactly once, no unselected row, in strictly increasing (or, for DESC, decreasing) id order |
| TableQuery.SameSelectionSameRows | app/services/student_service.py:31-48 | two WHERE clauses that agree on every stored row give the same ordered result |
| TableQuery.DescendingIsReversedAscending | app/services/student_service.py:27 | `ORDER BY id DESC` is `ORDER BY id` reversed |
| TableQuery.Select | admin_cli/students.py:25-35 | a negative LIMIT or OFFSET is a data error. Otherwise the page is the ordered result with the first `offset` rows dropped and cut to `limit` rows, so it has at most `limit` rows, keeps the order, and holds only stored, selected rows |
| TableQuery.WholeTablePage | admin_cli/students.py:25-35 | with LIMIT at least the table size and no OFFSET, the page is the whole ordered result |
| Schemas.ValidCreateFitsColumns | app/schemas/student.py:4-14 | a payload the create schema accepts fills every NOT NULL column, and fits every column of the table exactly when its email has at most 255 characters |
| StudentService.ValidPatchFits | app/schemas/student.py:17-22 | a patch the update schema accepts, applied to a stored row, fits every column exactly when the email it writes (if any) has at most 255 characters, and fills every NOT NULL column exactly when no name and no email is sent as null |
| StudentService.CreateStudent | app/services/student_service.py:9-14 | creating from a payload stores exactly its six fields under the next id with both timestamps set to now, and advances the id sequence. It fails with a data error exactly when a value is too long for its column, with a unique violation exactly when the values fit and the email is taken, and with no other error |
| StudentService.ValidPayloadInsert | app/services/student_service.py:9-14 | for a payload the schema accepts, the only possible failures are a unique violation or an email over 255 characters |
| StudentService.GetStudent | app/services/student_service.py:17-18 | lookup by primary key finds a record exactly when the id is stored, and then that record |
| StudentService.GetStudentByEmail | app/services/student_service.py:21-23 | the first record with exactly this email; none exactly when no record holds it |
| StudentService.GetStudentByEmailIsUnique | app/services/student_service.py:21-23 | since emails are unique, the lookup returns the one record holding the email |
| StudentService.ListStudents | app/services/student_service.py:26-28 | the page of `ORDER BY id DESC` starting at `offset` and cut to `limit`: at most `limit` stored records, newest first |
| StudentService.ListStudentsWholeTable | app/services/student_service.py:26-28 | with no offset and a limit covering the table, the listing is every record, newest first |
| StudentService.SearchStudents | app/services/student_service.py:31-48 | the page, starting at `offset` and cut to `limit`, of the records matching the stripped query in some text column, newest first |
| StudentService.SearchIsContainment | app/services/student_service.py:31-48 | for a wildcard-free stripped query, a record matches exactly when its first name, last name or email, or its phone or address when present, contains the query ignoring case |
| StudentService.BlankQueryMatchesAll | app/services/student_service.py:32 | a query of only whitespace strips to `%%`, which matches every record |
| StudentService.UpdateStudent | app/services/student_service.py:51-65 | a payload that sets nothing returns the record unwritten. Otherwise a missing id gives no row, and the write fails exactly when a patched value is too long (data error), a NOT NULL column becomes NULL (NotNullViolation exactly when the values fit), or another record holds the email (unique violation exactly then, with the values fitting and filled). On success each sent field replaces the stored one, unsent fields and `created_at` stay, and `updated_at` becomes now |
| StudentService.DeleteStudent | app/services/student_service.py:68-70 | removes exactly that record |
| StudentRoutes.NormEmail | app/api/routes_students.py:13-14 | the normalised email is the lower-cased input with outer whitespace removed: it has no upper-case letter and no outer whitespace, the lower-cased input is it padded by whitespace, and it is empty exactly when the input is all whitespace |
| StudentRoutes.NormEmailIdempotent | app/api/routes_students.py:13-14 | normalising twice is normalising once |
| StudentRoutes.Create | app/api/routes_students.py:17-30 | 401 exactly without the admin key; 422 exactly for a body the schema rejects; every error leaves the table as it was; otherwise the validated create |
| StudentRoutes.CreateValidated | app/api/routes_students.py:19-30 | 409 exactly when the normalised email is held at pre-check time, or fits and is held when the insert runs. 500 exactly when it is free but longer than 255. On success one record is added, with the normalised email, and returned |
| StudentRoutes.InsertTranslated | app/api/routes_students.py:26-30 | for a validated payload, the insert is answered 409 exactly when the email fits and is taken, 500 exactly when it is over 255 characters, and otherwise adds the record under the next id and returns it; errors leave the table as it was |
| StudentRoutes.CreateWithoutRace | app/api/routes_students.py:19-30 | with no concurrent writer, a create conflicts exactly when the normalised email is taken, and succeeds exactly when it is free and at most 255 characters |
| StudentRoutes.CaseVariantConflicts | app/api/routes_students.py:19-24 | after a successful create, a second create whose email differs only in case or outer whitespace is refused with 409 and changes nothing |
| StudentRoutes.GetOne | app/api/routes_students.py:47-52 | 404 exactly when the id is not stored, else that record |
| StudentRoutes.Update | app/api/routes_students.py:55-79 | 401 without the admin key, 422 for an invalid body, errors leave the table unchanged, otherwise the validated update |
| StudentRoutes.UpdateValidated | app/api/routes_students.py:58-79 | 404 exactly for an unknown id. A sent email equal to the stored one after normalisation, or a patch that sets nothing, returns the record unchanged. 409 exactly when another record holds the new email at pre-check time, or the write is refused for a taken email or a NULL column. Past the pre-check, 500 exactly when the record has gone or a patched value is too long. A successful write patches the record as sent |
| StudentRoutes.WriteTranslated | app/api/routes_students.py:75-79 | a patch that sets nothing returns the record; otherwise 409 exactly on an integrity refusal (a taken email or a NULL column), 500 exactly when the record is gone or a value is too long, and on success the record patched as sent; errors leave the table as it was |
| StudentRoutes.PreCheckNeverFindsSelf | app/api/routes_students.py:70-72 | the own-id exclusion in the pre-check never fires: for an email other than the record's, the lookup finds something exactly when another record holds it |
| StudentRoutes.UpdateWithoutRace | app/api/routes_students.py:62-79 | with no concurrent writer and no name sent as null, a changed-email update conflicts exactly when another record holds the normalised email |
| StudentRoutes.NullNameIsConflict | app/api/routes_students.py:74-78 | a name explicitly sent as null passes validation and is answered 409 with no change |
| StudentRoutes.SameEmailSkipsOtherFields | app/api/routes_students.py:63-68 | a sent email equal to the stored one short-circuits the update: a different first name sent with it is not applied |
| StudentRoutes.Delete | app/api/routes_students.py:82-89 | 401 without the admin key, 404 for an unknown id (no change), else (an authorised delete of a stored id) always the status "deleted", with exactly that record removed and the id sequence kept; no other error |
| StudentRoutes.List | app/api/routes_students.py:33-44 | 422 unless 1 ≤ limit ≤ 200 and offset ≥ 0. At most `limit` records, newest first. A non-empty `q` gives the search page, an absent or empty one the listing page |
| StudentRoutes.ListQuery | app/api/routes_students.py:33-44 | an omitted limit is 50 and an omitted offset 0; 422 exactly when a given limit is outside 1..200 or a given offset is negative; with neither given, the answer is at most 50 records; the page is the listing or search page at those values |
| StudentRoutes.BlankQueryListsAll | app/api/routes_students.py:42-44 | a query of only whitespace is non-empty, so it searches, yet its page equals the plain listing |
| AdminStudents.NormText | admin_cli/students.py:11-15 | absent stays absent; all-whitespace text becomes absent; otherwise the text without outer whitespace, non-empty |
| AdminStudents.NormEmail | admin_cli/students.py:18-22 | absent exactly when `NormText` gives absent, otherwise that text lower-cased |
| AdminStudents.NormTextIdempotent | admin_cli/students.py:11-15 | normalising a name twice is normalising it once |
| AdminStudents.NormEmailIdempotent | admin_cli/students.py:18-22 | normalising an email twice is normalising it once |
| AdminStudents.ListStudents | admin_cli/students.py:25-35 | a negative limit or offset is a database error; otherwise the page of `ORDER BY id` starting at `offset` and cut to `limit`: at most `limit` stored rows, oldest first |
| AdminStudents.SearchStudents | admin_cli/students.py:38-52 | a negative limit or offset is a database error; otherwise the page, oldest first, of the rows matching `%q%` in a name or the email, starting at `offset` and cut to `limit` |
| AdminStudents.SearchIsContainment | admin_cli/students.py:38-52 | for a wildcard-free query, used unstripped, a row matches exactly when its first name, last name or email contains the query ignoring case |
| AdminStudents.GetStudent | admin_cli/students.py:55-64 | the row with this id, or none exactly when it is not stored |
| AdminStudents.CreateStudent | admin_cli/students.py:67-85 | "Email already exists" exactly when the normalised values fit and the email is taken, and a data error exactly when they do not fit. On success one row is added under a fresh id, with the normalised values (blank ones as empty strings) |
| AdminStudents.CaseVariantExists | admin_cli/students.py:67-85 | after a successful create, a second create whose email normalises to the same one and whose normalised values fit their columns raises "Email already exists" (with an over-long value the database refuses it with a data error instead) |
| AdminStudents.WriteCoalesced | admin_cli/students.py:105-121 | a missing id gives no row and no change. For a stored id the write fails exactly when a coalesced value is too long (a data error exactly then) or another row holds the new email ("Email already exists"). On success present values replace the stored ones and the others stay; phone, age, address and both timestamps are untouched |
| AdminStudents.UpdateStudent | admin_cli/students.py:88-121 | when every input normalises to absent, nothing is written and the current row (or none) comes back; otherwise the COALESCE update runs on the normalised inputs |
| AdminStudents.DeleteStudent | admin_cli/students.py:124-125 | the count is 1 exactly when the id is stored and 0 otherwise; exactly that row is removed and the id sequence is kept |
| FrontEnds.EmailNormalisersAgree | admin_cli/students.py:70 | the two email normalisers (command line: strip, lower-case, blank to empty; API: strip then lower-case) agree on every string |
| FrontEnds.ApiEmailBlocksCliCreate | admin_cli/students.py:67-85 | an email created through the API cannot be registered again from the command line under a spelling that normalises to it |
| FrontEnds.ListingsAreReversed | app/services/student_service.py:26-28 | over the whole table, the API listing is the command-line listing in reverse order |
| FrontEnds.CliBlankNameFailsOutputSchema | app/schemas/student.py:25-26 | a command-line create with a blank first name stores the empty string, which the API output schema does not accept |

## Left out

- Database connections, sessions, commits and rollbacks, and how the command line renders rows: these are I/O. A rollback is modelled as "the table is unchanged".
- `admin_cli/cli.py`, argument parsing and the dry-run guard: not part of this model. The data functions they call are modelled.
- Concurrency: interleaving is reduced to the two tables an HTTP create or update sees. Other transaction isolation effects are not modelled.
- Sequence gaps: PostgreSQL consumes a sequence value even when an INSERT fails. The model leaves `nextId` unchanged on failure. Ids stay fresh either way.
- Id overflow: the `INTEGER` id sequence runs out at 2^31 - 1 in PostgreSQL, and further inserts fail; ids here are unbounded.
- `EmailStr` validation, which is an external library: the verdict is a boolean input, and the model passes the body's email through unchanged. In the program, `EmailStr` also rewrites the address (it strips it, takes `addr` out of `Name <addr>` and lower-cases the domain) and refuses addresses longer than 254 characters. So the API's 500 for a free email longer than 255 characters (`StudentRoutes.CreateValidated`, `StudentRoutes.InsertTranslated`, `StudentRoutes.CreateWithoutRace`) cannot happen in the program, and for an input such as `Ann <ann@x.com>` the API stores `ann@x.com` where the command line stores `ann <ann@x.com>`.
- Unicode: whitespace and lower-casing are modelled for ASCII only. Python's `str.strip()` and `lower()` also act on other Unicode characters.
- Timestamps: `now()` is an input number. Time zones are not modelled.
- Response-model validation by FastAPI (a stored row that fails `StudentOut`): shown by `FrontEnds.CliBlankNameFailsOutputSchema`, but the 500 it would cause is not modelled.
- SQLAlchemy's skip of unchanged attributes: an ORM update that sets a field to its current value is modelled as a write (refreshing `updated_at`).
- `app/api/deps.py`, `app/core/*`, health checks, migrations and the public routes: not part of this model.
- StudentService.SearchStudents: the case-insensitive comparison is modelled with ASCII lower-casing, not PostgreSQL's collation-dependent `ILIKE`.
- StudentRoutes.UpdateValidated: the explicit patch email has no counterpart in `StudentUpdate`, so app/api/routes_students.py:64 does not run as written (reading the undeclared `payload.email` fails); the model follows the handler's logic for a payload that carries an email, and does not model that failure.
- StudentTable.Insert: a value longer than its `VARCHAR` width whose excess characters are all spaces is refused with `DataError` here; PostgreSQL truncates it to the column width and stores it. Neither front-end can send such a value (the command line strips text, and the schema limits equal the column widths).
- StudentTable.Update: the same all-spaces truncation rule is not modelled for UPDATE; such a value is a `DataError` here.

=== FILE: admin_students.dfy ===
/**
 * The admin command-line tool's data access: raw SQL over the same table, with
 * its own text normalisers. Lists and searches order by id, oldest first, and
 * return six columns of each row.
 */
module AdminStudents {
  import opened Optional
  import opened Text
  import opened Like
  import opened StudentTable
  import opened TableQuery

  /** The columns the tool's queries return. */
  datatype CliRow = CliRow(id: nat, firstName: string, lastName: string, email: string, createdAt: nat, updatedAt: nat)

  /** `EmailExists` is the ValueError raised for a taken email; other database errors propagate. */
  datatype CliError = EmailExists(email: string) | Database(error: StoreError)

  function Summary(s: Student): CliRow {
    CliRow(s.id, s.firstName, s.lastName, s.email, s.createdAt, s.updatedAt)
  }

  /** Absent stays absent; otherwise the stripped text, or absent when nothing but whitespace remains. */
  function NormText(s: Option<string>): (r: Option<string>)
    ensures s.None? ==> r.None?
    ensures s.Some? ==> (r.None? <==> AllSpace(s.value))
    ensures r.Some? ==> |r.value| > 0 && Stripped(r.value) && exists i :: Pads(s.value, r.value, i)
  {
    match s
    case None => None
    case Some(t) =>
      var u := Strip(t);
      if u == [] then None else Some(u)
  }

  /** `NormText`, then lower-case. */
  function NormEmail(email: Option<string>): (r: Option<string>)
    ensures r.None? <==> NormText(email).None?
    ensures r.Some? ==> |r.value| > 0 && Stripped(r.value) && IsLower(r.value)
    ensures r.Some? ==> r.value == Lower(NormText(email).value)
  {
    match NormText(email)
    case None => None
    case Some(t) =>
      LowerKeepsStripped(t);
      LowerIsLower(t);
      Some(Lower(t))
  }

  lemma NormTextIdempotent(s: Option<string>)
    ensures NormText(NormText(s)) == NormText(s)
  {
    if NormText(s).Some? {
      StripOfStripped(NormText(s).value);
    }
  }

  lemma NormEmailIdempotent(email: Option<string>)
    ensures NormEmail(NormEmail(email)) == NormEmail(email)
  {
    var e := NormEmail(email);
    if e.Some? {
      StripOfStripped(e.value);
      LowerIsLower(e.value);
    }
  }

  function Summaries(rs: seq<Student>): (r: seq<CliRow>)
    ensures |r| == |rs|
    ensures forall i :: 0 <= i < |rs| ==> r[i] == Summary(rs[i])
  {
    seq(|rs|, i requires 0 <= i < |rs| => Summary(rs[i]))
  }

  /** Consecutive rows have strictly increasing ids. */
  predicate OldestFirst(rs: seq<CliRow>) {
    forall i, j :: 0 <= i < j < |rs| ==> rs[i].id < rs[j].id
  }

  function SelectRows(t: Table, f: Filter, limit: int, offset: int): (r: Result<seq<CliRow>, CliError>)
    requires WellFormed(t)
    ensures r.Err? <==> limit < 0 || offset < 0
    ensures r.Err? ==> r.error == Database(DataError)
    ensures r.Ok? ==> |r.value| <= limit && OldestFirst(r.value)
    ensures r.Ok? ==> forall i :: 0 <= i < |r.value| ==>
      offset + i < |Ordered(t, f, Ascending)| && r.value[i] == Summary(Ordered(t, f, Ascending)[offset + i])
    ensures r.Ok? ==> r.value == Summaries(Page(Ordered(t, f, Ascending), limit, offset))
  {
    match Select(t, f, Ascending, limit, offset)
    case Err(e) => Err(Database(e))
    case Ok(rs) => Ok(Summaries(rs))
  }

  /** `students list`: every row, lowest id first, then OFFSET and LIMIT. */
  function ListStudents(t: Table, limit: int, offset: int): (r: Result<seq<CliRow>, CliError>)
    requires WellFormed(t)
    ensures r.Err? <==> limit < 0 || offset < 0
    ensures r.Ok? ==> |r.value| <= limit && OldestFirst(r.value)
    ensures r.Ok? ==> forall i :: 0 <= i < |r.value| ==> r.value[i].id in t.rows && Summary(t.rows[r.value[i].id]) == r.value[i]
    ensures r.Ok? ==> r.value == Summaries(Page(Ordered(t, Everything, Ascending), limit, offset))
  {
    SelectRows(t, Everything, limit, offset)
  }

  /**
   * `students search`: rows whose first name, last name or email matches `%q%`
   * case-insensitively, with `q` used as given (not stripped).
   */
  function SearchStudents(t: Table, q: string, limit: int, offset: int): (r: Result<seq<CliRow>, CliError>)
    requires WellFormed(t)
    ensures r.Err? <==> limit < 0 || offset < 0
    ensures r.Ok? ==> |r.value| <= limit && OldestFirst(r.value)
    ensures r.Ok? ==> forall i :: 0 <= i < |r.value| ==>
      var id := r.value[i].id;
      id in t.rows && Summary(t.rows[id]) == r.value[i] && Selects(NameOrEmailLike(ContainsPattern(q)), t.rows[id])
    ensures r.Ok? ==> r.value == Summaries(Page(Ordered(t, NameOrEmailLike(ContainsPattern(q)), Ascending), limit, offset))
  {
    SelectRows(t, NameOrEmailLike(ContainsPattern(q)), limit, offset)
  }

  /**
   * For a query without `%`, `_` or `\`, the search selects exactly the rows whose
   * first name, last name or email contains `q` ignoring case; surrounding
   * whitespace in `q` is part of the text searched for.
   */
  lemma SearchIsContainment(q: string, s: Student)
    requires Literal(q)
    ensures Selects(NameOrEmailLike(ContainsPattern(q)), s) <==>
      || Contains(Lower(s.firstName), Lower(q))
      || Contains(Lower(s.lastName), Lower(q))
      || Contains(Lower(s.email), Lower(q))
  {
    ILikeIsContainment(s.firstName, q);
    ILikeIsContainment(s.lastName, q);
    ILikeIsContainment(s.email, q);
  }

  /** `students get`. */
  function GetStudent(t: Table, id: int): (r: Option<CliRow>)
    ensures r.Some? <==> id in t.rows
    ensures r.Some? ==> r.value == Summary(t.rows[id])
  {
    match Get(t, id)
    case None => None
    case Some(s) => Some(Summary(s))
  }

  /** The name and email columns a create writes: normalised, with absent stored as the empty string. */
  function CreateValues(firstName: string, lastName: string, email: string): Values {
    Values(
      Some(NormText(Some(firstName)).GetOr("")),
      Some(NormText(Some(lastName)).GetOr("")),
      Some(NormEmail(Some(email)).GetOr("")),
      None, None, None)
  }

  /**
   * `students create`: inserts the normalised names and email (blank ones as the
   * empty string; nothing is rejected for being blank). A taken email raises
   * "Email already exists" and leaves the table unchanged; otherwise exactly one
   * row with a fresh id is added.
   */
  function CreateStudent(t: Table, firstName: string, lastName: string, email: string, now: nat)
    : (r: Result<Written, CliError>)
    ensures var v := CreateValues(firstName, lastName, email);
      r == Err(EmailExists(v.email.value)) <==> FitsColumns(v) && EmailHeldByOther(t, v.email.value, -1)
    ensures var v := CreateValues(firstName, lastName, email);
      r == Err(Database(DataError)) <==> !FitsColumns(v)
    ensures r.Err? ==> r.error == EmailExists(CreateValues(firstName, lastName, email).email.value) || r.error == Database(DataError)
    ensures r.Ok? ==>
      && r.value.row.id == t.nextId
      && r.value.table == Table(t.rows[t.nextId := r.value.row], t.nextId + 1)
      && ValuesOf(r.value.row) == CreateValues(firstName, lastName, email)
      && r.value.row.createdAt == now && r.value.row.updatedAt == now
    ensures WellFormed(t) && r.Ok? ==> r.value.row.id !in t.rows && WellFormed(r.value.table)
  {
    var v := CreateValues(firstName, lastName, email);
    var a := Assignment(Set(v.firstName), Set(v.lastName), Set(v.email), Unset, Unset, Unset);
    assert Apply(Defaults, a) == v;
    match Insert(t, a, now)
    case Ok(w) => Ok(w)
    case Err(UniqueViolation) => Err(EmailExists(v.email.value))
    case Err(e) => Err(Database(e))
  }

  /** `COALESCE(value, column)`: a NULL parameter keeps the column. */
  function Coalesce(v: Option<string>): Field<Option<string>> {
    if v.Some? then Set(v) else Unset
  }

  /**
   * The UPDATE statement of `students update`, for normalised inputs: present
   * fields replace the stored ones and the rest stay; a missing id gives no row
   * and no change; an email held by another row raises "Email already exists" and
   * changes nothing. The statement sets no `updated_at`.
   */
  function WriteCoalesced(t: Table, id: int, f: Option<string>, l: Option<string>, e: Option<string>)
    : (r: Result<(Table, Option<CliRow>), CliError>)
    requires WellFormed(t)
    ensures id !in t.rows ==> r == Ok((t, None))
    ensures id in t.rows ==>
      var v := Apply(ValuesOf(t.rows[id]), Assignment(Coalesce(f), Coalesce(l), Coalesce(e), Unset, Unset, Unset));
      (r.Err? <==> !FitsColumns(v) || EmailHeldByOther(t, v.email.value, id))
    ensures r == Err(Database(DataError)) <==>
      id in t.rows && !FitsColumns(Apply(ValuesOf(t.rows[id]), Assignment(Coalesce(f), Coalesce(l), Coalesce(e), Unset, Unset, Unset)))
    ensures r.Ok? && id in t.rows ==>
      && id in r.value.0.rows
      && var prev := t.rows[id];
      && var row := r.value.0.rows[id];
      && r.value.0 == Table(t.rows[id := row], t.nextId)
      && r.value.1 == Some(Summary(row))
      && row.firstName == f.GetOr(prev.firstName)
      && row.lastName == l.GetOr(prev.lastName)
      && row.email == e.GetOr(prev.email)
      && row.phone == prev.phone && row.age == prev.age && row.address == prev.address
      && row.createdAt == prev.createdAt && row.updatedAt == prev.updatedAt
    ensures id in t.rows && e.Some? ==>
      (r == Err(EmailExists(e.value)) <==>
        FitsColumns(Apply(ValuesOf(t.rows[id]), Assignment(Coalesce(f), Coalesce(l), Coalesce(e), Unset, Unset, Unset)))
        && EmailHeldByOther(t, e.value, id))
    ensures r.Err? ==> r.error.EmailExists? || r.error == Database(DataError)
    ensures r.Ok? ==> WellFormed(r.value.0)
  {
    match Update(t, id, Assignment(Coalesce(f), Coalesce(l), Coalesce(e), Unset, Unset, Unset), None)
    case Ok(w) => Ok((w.table, Some(Summary(w.row))))
    case Err(NoRow) => Ok((t, None))
    case Err(UniqueViolation) => Err(EmailExists(e.GetOr("")))
    case Err(err) => Err(Database(err))
  }

  /**
   * `students update`: the inputs are normalised; when all three are absent there
   * is no write and the current row (or none) comes back, otherwise the UPDATE runs.
   */
  function UpdateStudent(t: Table, id: int, firstName: Option<string>, lastName: Option<string>, email: Option<string>)
    : (r: Result<(Table, Option<CliRow>), CliError>)
    requires WellFormed(t)
    ensures NormText(firstName).None? && NormText(lastName).None? && NormEmail(email).None? ==>
      r == Ok((t, GetStudent(t, id)))
    ensures id !in t.rows ==> r == Ok((t, None))
    ensures !(NormText(firstName).None? && NormText(lastName).None? && NormEmail(email).None?) ==>
      r == WriteCoalesced(t, id, NormText(firstName), NormText(lastName), NormEmail(email))
    ensures r.Ok? ==> WellFormed(r.value.0)
  {
    var f := NormText(firstName);
    var l := NormText(lastName);
    var e := NormEmail(email);
    if f.None? && l.None? && e.None? then Ok((t, GetStudent(t, id)))
    else WriteCoalesced(t, id, f, l, e)
  }

  /** `students delete`: the number of rows removed, 1 when the id exists and 0 otherwise. */
  function DeleteStudent(t: Table, id: int): (r: Deleted)
    ensures r.count == 1 <==> id in t.rows
    ensures r.count == 0 <==> id !in t.rows
    ensures forall k :: k in r.table.rows <==> k in t.rows && k != id
    ensures forall k :: k in r.table.rows ==> r.table.rows[k] == t.rows[k]
    ensures r.table.nextId == t.nextId
    ensures WellFormed(t) ==> WellFormed(r.table)
  {
    Delete(t, id)
  }

  /**
   * Emails that normalise alike are duplicates: after one is created, creating
   * the other, with values that fit their columns, raises "Email already exists"
   * and changes nothing.
   */
  lemma CaseVariantExists(
    t: Table, firstName: string, lastName: string, email: string, now: nat,
    firstName': string, lastName': string, email': string, later: nat)
    ensures var r := CreateStudent(t, firstName, lastName, email, now);
      r.Ok? && NormEmail(Some(email')) == NormEmail(Some(email)) && FitsColumns(CreateValues(firstName', lastName', email')) ==>
        CreateStudent(r.value.table, firstName', lastName', email', later)
          == Err(EmailExists(CreateValues(firstName, lastName, email).email.value))
  {
    var r := CreateStudent(t, firstName, lastName, email, now);
    if r.Ok? && NormEmail(Some(email')) == NormEmail(Some(email)) {
      assert r.value.table.rows[t.nextId].email == CreateValues(firstName, lastName, email).email.value;
      assert EmailHeldByOther(r.value.table, CreateValues(firstName', lastName', email').email.value, -1);
    }
  }
}

=== FILE: front_ends.dfy ===
/**
 * How the admin command line and the HTTP API see the same table: both
 * normalise emails to the same stored form, list the same records in opposite
 * orders, and the command line can store records the API's output schema
 * refuses.
 */
module FrontEnds {
  import opened Optional
  import opened Text
  import opened StudentTable
  import opened TableQuery
  import opened Schemas
  import AdminStudents
  import StudentRoutes

  /** The email a command-line create stores is the email an API create stores for the same input. */
  lemma EmailNormalisersAgree(email: string)
    ensures StudentRoutes.NormEmail(email) == AdminStudents.NormEmail(Some(email)).GetOr("")
  {
    if AllSpace(email) {
      assert Strip(email) == [];
    }
  }

  /**
   * An email taken through the API cannot be registered again from the command
   * line under any spelling that normalises to it.
   */
  lemma ApiEmailBlocksCliCreate(
    t: Table, p: StudentCreate, emailValid: bool, now: nat,
    firstName: string, lastName: string, email: string, later: nat)
    requires WellFormed(t) && ValidCreate(p, emailValid)
    ensures var r := StudentRoutes.CreateValidated(t, t, p, emailValid, now);
      && r.body.Ok?
      && StudentRoutes.NormEmail(email) == StudentRoutes.NormEmail(p.email)
      && FitsColumns(AdminStudents.CreateValues(firstName, lastName, email))
      ==> AdminStudents.CreateStudent(r.table, firstName, lastName, email, later)
            == Err(AdminStudents.EmailExists(StudentRoutes.NormEmail(p.email)))
  {
    var r := StudentRoutes.CreateValidated(t, t, p, emailValid, now);
    var e := StudentRoutes.NormEmail(p.email);
    if r.body.Ok? && StudentRoutes.NormEmail(email) == e {
      EmailNormalisersAgree(email);
      assert r.table.rows[t.nextId].email == e;
      assert EmailHeldByOther(r.table, e, -1);
    }
  }

  /** With a limit covering the table, the command line lists every record, oldest first. */
  lemma CliListsWholeTable(t: Table, limit: int)
    requires WellFormed(t) && limit >= |t.rows|
    ensures AdminStudents.ListStudents(t, limit, 0) == Ok(AdminStudents.Summaries(Ordered(t, Everything, Ascending)))
  {
    WholeTablePage(t, Everything, Ascending, limit);
  }

  /** With a limit covering the table, the API lists every record, newest first. */
  lemma ApiListsWholeTable(t: Table, limit: int)
    requires WellFormed(t) && StudentRoutes.MinLimit <= limit <= StudentRoutes.MaxLimit && limit >= |t.rows|
    ensures StudentRoutes.List(t, limit, 0, None) == Ok(StudentRoutes.Outs(Ordered(t, Everything, Descending)))
  {
    var desc := Ordered(t, Everything, Descending);
    WholeTablePage(t, Everything, Descending, limit);
    assert Page(desc, limit, 0) == desc;
  }

  /** Rendering a reversed result for each front-end gives the ids in opposite orders. */
  lemma RenderedReversed(asc: seq<Student>, desc: seq<Student>)
    requires desc == Reverse(asc)
    ensures var cli := AdminStudents.Summaries(asc);
      var api := StudentRoutes.Outs(desc);
      |cli| == |api| && forall i :: 0 <= i < |api| ==> api[i].id == cli[|cli| - 1 - i].id
  {
  }

  /**
   * Over the whole table the API's listing (newest first) is the command line's
   * listing (oldest first) read backwards.
   */
  lemma ListingsAreReversed(t: Table, limit: int)
    requires WellFormed(t) && StudentRoutes.MinLimit <= limit <= StudentRoutes.MaxLimit && limit >= |t.rows|
    ensures AdminStudents.ListStudents(t, limit, 0).Ok? && StudentRoutes.List(t, limit, 0, None).Ok?
    ensures var cli := AdminStudents.ListStudents(t, limit, 0).value;
      var api := StudentRoutes.List(t, limit, 0, None).value;
      |cli| == |api| && forall i :: 0 <= i < |api| ==> api[i].id == cli[|cli| - 1 - i].id
  {
    var asc := Ordered(t, Everything, Ascending);
    var desc := Ordered(t, Everything, Descending);
    CliListsWholeTable(t, limit);
    ApiListsWholeTable(t, limit);
    DescendingIsReversedAscending(t, Everything);
    var cli := AdminStudents.ListStudents(t, limit, 0).value;
    var api := StudentRoutes.List(t, limit, 0, None).value;
    assert cli == AdminStudents.Summaries(asc);
    assert api == StudentRoutes.Outs(desc);
    RenderedReversed(asc, desc);
  }

  /**
   * A command-line create with a blank first name succeeds and stores the empty
   * string, which the API's output schema (first name at least one character)
   * does not accept.
   */
  lemma CliBlankNameFailsOutputSchema(
    t: Table, firstName: string, lastName: string, email: string, now: nat, emailValid: bool)
    requires AllSpace(firstName)
    ensures var r := AdminStudents.CreateStudent(t, firstName, lastName, email, now);
      r.Ok? ==> r.value.row.firstName == "" && !ValidOut(ToOut(r.value.row), emailValid)
  {
  }
}

=== FILE: like.dfy ===
/**
 * PostgreSQL's LIKE and ILIKE pattern matching, as the searches use it:
 * `%` matches any run of characters, `_` any single character, and the default
 * escape character `\` makes the next pattern character literal.
 * ILIKE compares the lower-cased text with the lower-cased pattern.
 */
module Like {
  import opened Text

  /** `s LIKE p`. A pattern ending in a lone `\` is an error in PostgreSQL; it matches nothing here. */
  predicate LikeMatch(s: string, p: string)
    decreases |s| + |p|
  {
    if |p| == 0 then |s| == 0
    else if p[0] == '%' then LikeMatch(s, p[1..]) || (|s| > 0 && LikeMatch(s[1..], p))
    else if p[0] == '_' then |s| > 0 && LikeMatch(s[1..], p[1..])
    else if p[0] == '\\' then |p| >= 2 && |s| > 0 && s[0] == p[1] && LikeMatch(s[1..], p[2..])
    else |s| > 0 && s[0] == p[0] && LikeMatch(s[1..], p[1..])
  }

  /** `s ILIKE p`, with ASCII case folding. */
  predicate ILike(s: string, p: string) {
    LikeMatch(Lower(s), Lower(p))
  }

  /** The pattern `%q%` both searches build from the query text. */
  function ContainsPattern(q: string): string {
    "%" + q + "%"
  }

  /** `q` holds none of the characters LIKE treats specially. */
  predicate Literal(q: string) {
    forall i :: 0 <= i < |q| ==> q[i] != '%' && q[i] != '_' && q[i] != '\\'
  }

  /** `%` matches every string, and so does `%%`, the pattern an empty query gives. */
  lemma {:induction false} PercentMatchesAll(s: string)
    ensures LikeMatch(s, "%")
    ensures LikeMatch(s, "%%")
    decreases |s|
  {
    if |s| > 0 {
      PercentMatchesAll(s[1..]);
    } else {
      assert LikeMatch(s, "%"[1..]);
    }
    assert "%%"[1..] == "%";
  }

  /** A literal followed by `%` matches exactly the strings the literal starts. */
  lemma {:induction false} LiteralThenPercent(t: string, lit: string)
    requires Literal(lit)
    ensures LikeMatch(t, lit + "%") <==> |lit| <= |t| && t[..|lit|] == lit
    decreases |lit|
  {
    if |lit| == 0 {
      assert lit + "%" == "%";
      PercentMatchesAll(t);
    } else {
      assert (lit + "%")[1..] == lit[1..] + "%";
      if |t| > 0 {
        LiteralThenPercent(t[1..], lit[1..]);
        if |lit| <= |t| && t[..|lit|] == lit {
          assert t[1..][..|lit| - 1] == lit[1..];
        }
        if |lit[1..]| <= |t[1..]| && t[1..][..|lit[1..]|] == lit[1..] && t[0] == lit[0] {
          assert t[..|lit|] == [t[0]] + t[1..][..|lit| - 1];
        }
      }
    }
  }

  lemma OccursAtShift(s: string, q: string, i: int)
    requires |s| > 0 && i >= 0
    ensures OccursAt(s[1..], q, i) <==> OccursAt(s, q, i + 1)
  {
    if 0 <= i && i + 1 + |q| <= |s| {
      assert s[1..][i..i + |q|] == s[i + 1..i + 1 + |q|];
    }
  }

  /** `s LIKE '%lit%'` holds exactly when `lit` occurs in `s`. */
  lemma {:induction false} SurroundedLiteral(s: string, lit: string)
    requires Literal(lit)
    ensures LikeMatch(s, ContainsPattern(lit)) <==> Contains(s, lit)
    decreases |s|
  {
    var p := ContainsPattern(lit);
    assert p[1..] == lit + "%";
    LiteralThenPercent(s, lit);
    assert LikeMatch(s, lit + "%") <==> OccursAt(s, lit, 0);
    if |s| == 0 {
      assert Contains(s, lit) <==> OccursAt(s, lit, 0);
    } else {
      SurroundedLiteral(s[1..], lit);
      if Contains(s, lit) && !OccursAt(s, lit, 0) {
        var i :| 0 <= i <= |s| && OccursAt(s, lit, i);
        OccursAtShift(s, lit, i - 1);
        assert OccursAt(s[1..], lit, i - 1);
      }
      if Contains(s[1..], lit) {
        var i :| 0 <= i <= |s[1..]| && OccursAt(s[1..], lit, i);
        OccursAtShift(s, lit, i);
        assert OccursAt(s, lit, i + 1);
      }
    }
  }

  lemma LowerKeepsLiteral(q: string)
    requires Literal(q)
    ensures Literal(Lower(q))
  {
  }

  /**
   * For a query free of wildcard and escape characters, ILIKE '%q%' is
   * case-insensitive substring containment.
   */
  lemma {:induction false} ILikeIsContainment(s: string, q: string)
    requires Literal(q)
    ensures ILike(s, ContainsPattern(q)) <==> Contains(Lower(s), Lower(q))
  {
    LowerConcat("%" + q, "%");
    LowerConcat("%", q);
    assert Lower(ContainsPattern(q)) == ContainsPattern(Lower(q));
    LowerKeepsLiteral(q);
    SurroundedLiteral(Lower(s), Lower(q));
  }

  /**
   * An `_` in the query is a wildcard, not a literal underscore: `%_%` matches
   * exactly the non-empty texts, including those with no underscore in them.
   */
  lemma UnderscoreIsWildcard(s: string)
    ensures ILike(s, ContainsPattern("_")) <==> |s| > 0
    ensures (forall k :: 0 <= k < |s| ==> s[k] != '_') ==> !Contains(Lower(s), Lower("_"))
  {
    var x := Lower(s);
    var p := Lower(ContainsPattern("_"));
    assert p == "%_%";
    assert p[1..] == "_%";
    assert p[1..][1..] == "%";
    if |x| > 0 {
      PercentMatchesAll(x[1..]);
      assert LikeMatch(x, p[1..]);
    } else {
      assert !LikeMatch(x, p[1..]);
      assert !LikeMatch(x, p);
    }
    assert Lower("_") == "_";
    if (forall k :: 0 <= k < |s| ==> s[k] != '_') && Contains(x, "_") {
      assert false;
    }
  }

}

=== FILE: optional.dfy ===
/** Small failure-carrying datatypes shared by the model. */
module Optional {

  /** A value that may be absent: Python's `None`, or SQL NULL in a column. */
  datatype Option<+T> = None | Some(value: T) {
    function GetOr(default: T): T {
      match this
      case Some(v) => v
      case None => default
    }
  }

  /** Either a value or an error. */
  datatype Result<+T, +E> = Ok(value: T) | Err(error: E)

  /** A field of a partial update: left out of the request, or sent with a value. */
  datatype Field<+T> = Unset | Set(value: T)
}

=== FILE: schemas.dfy ===
/**
 * The request and response shapes of the HTTP API and their field validators,
 * as predicates on inputs. The EmailStr check is an external validator: its
 * verdict on the email string is passed in as `emailValid`.
 */
module Schemas {
  import opened Optional
  import opened StudentTable

  const NameMinLength: nat := 1
  const NameMaxLength: nat := 80
  const PhoneMaxLength: nat := 32
  const AddressMaxLength: nat := 255
  const AgeMin: int := 0
  const AgeMax: int := 130

  /** The body of a create request (every StudentBase field). */
  datatype StudentCreate = StudentCreate(
    firstName: string,
    lastName: string,
    email: string,
    phone: Option<string>,
    age: Option<int>,
    address: Option<string>)

  /** The body of a partial update. It declares no email field. */
  datatype StudentUpdate = StudentUpdate(
    firstName: Field<Option<string>>,
    lastName: Field<Option<string>>,
    phone: Field<Option<string>>,
    age: Field<Option<int>>,
    address: Field<Option<string>>)

  /** The response shape: the StudentBase fields plus the id. */
  datatype StudentOut = StudentOut(
    id: int,
    firstName: string,
    lastName: string,
    email: string,
    phone: Option<string>,
    age: Option<int>,
    address: Option<string>)

  predicate NameOk(s: string) {
    NameMinLength <= |s| <= NameMaxLength
  }

  predicate PhoneOk(p: Option<string>) {
    p.None? || |p.value| <= PhoneMaxLength
  }

  predicate AgeOk(a: Option<int>) {
    a.None? || AgeMin <= a.value <= AgeMax
  }

  predicate AddressOk(a: Option<string>) {
    a.None? || |a.value| <= AddressMaxLength
  }

  /** The StudentBase validators. */
  predicate ValidBase(
    firstName: string, lastName: string, emailValid: bool,
    phone: Option<string>, age: Option<int>, address: Option<string>)
  {
    NameOk(firstName) && NameOk(lastName) && emailValid && PhoneOk(phone) && AgeOk(age) && AddressOk(address)
  }

  predicate ValidCreate(c: StudentCreate, emailValid: bool) {
    ValidBase(c.firstName, c.lastName, emailValid, c.phone, c.age, c.address)
  }

  /** An update name is left out, sent as null, or a valid name; null passes validation. */
  predicate UpdateNameOk(f: Field<Option<string>>) {
    f.Unset? || f.value.None? || NameOk(f.value.value)
  }

  predicate ValidUpdate(u: StudentUpdate) {
    && UpdateNameOk(u.firstName)
    && UpdateNameOk(u.lastName)
    && (u.phone.Unset? || PhoneOk(u.phone.value))
    && (u.age.Unset? || AgeOk(u.age.value))
    && (u.address.Unset? || AddressOk(u.address.value))
  }

  predicate ValidOut(o: StudentOut, emailValid: bool) {
    ValidBase(o.firstName, o.lastName, emailValid, o.phone, o.age, o.address)
  }

  function ToOut(s: Student): StudentOut {
    StudentOut(s.id, s.firstName, s.lastName, s.email, s.phone, s.age, s.address)
  }

  /** The columns a create payload writes: all six fields, unset optionals as NULL. */
  function CreateAssignment(c: StudentCreate): Assignment {
    Assignment(Set(Some(c.firstName)), Set(Some(c.lastName)), Set(Some(c.email)), Set(c.phone), Set(c.age), Set(c.address))
  }

  /**
   * A validated create payload fills every NOT NULL column and fits every column
   * bound but the email's, whose length the email validator governs.
   */
  lemma ValidCreateFitsColumns(c: StudentCreate, emailValid: bool)
    requires ValidCreate(c, emailValid)
    ensures var v := Apply(Defaults, CreateAssignment(c));
      NotNull(v) && (FitsColumns(v) <==> |c.email| <= EmailMax)
  {
  }
}

=== FILE: student_routes.dfy ===
/**
 * The HTTP handlers for `/students`: the admin gate, request validation, email
 * normalisation, the advisory duplicate pre-check, and the translation of the
 * database's integrity errors into 409.
 *
 * The pre-check and the write may see different tables when another writer
 * commits in between: `atCheck` is the table the handler reads, `atWrite` the
 * one its write lands on. With no concurrent writer the two are the same table.
 */
module StudentRoutes {
  import opened Optional
  import opened Text
  import opened StudentTable
  import opened TableQuery
  import opened Schemas
  import opened StudentService

  /**
   * The error statuses the routes answer with: 401 Unauthorized, 404 Not Found,
   * 409 Conflict, 422 Unprocessable Entity (request validation) and 500 for an
   * exception the route does not catch.
   */
  datatype ApiError = Unauthorized | NotFound | Conflict | Unprocessable | ServerError

  /** The table after the request, and the response body or error status. */
  datatype Response<+T> = Response(table: Table, body: Result<T, ApiError>)

  /** The body `{"status": "deleted"}`. */
  datatype Status = StatusDeleted

  const MinLimit: int := 1
  const MaxLimit: int := 200
  /** The page size and start GET /students uses when the query string names none. */
  const DefaultLimit: int := 50
  const DefaultOffset: int := 0

  /** Strip, then lower-case. Unlike the CLI's normaliser, a blank email stays the empty string. */
  function NormEmail(email: string): (r: string)
    ensures IsLower(r) && Stripped(r)
    ensures exists i :: Pads(Lower(email), r, i)
    ensures r == [] <==> AllSpace(email)
  {
    var s := Strip(email);
    LowerKeepsPads(email, s, SkipForward(email, 0));
    LowerKeepsStripped(s);
    LowerIsLower(s);
    Lower(s)
  }

  lemma NormEmailIdempotent(email: string)
    ensures NormEmail(NormEmail(email)) == NormEmail(email)
  {
    var e := NormEmail(email);
    StripOfStripped(e);
    LowerIsLower(e);
  }

  /** The email a partial update writes: the normalised address when one was sent. */
  function PatchEmail(email: Option<string>): Field<Option<string>> {
    if email.Some? then Set(Some(NormEmail(email.value))) else Unset
  }

  /** The sent email, once normalised, is the one the record already has. */
  predicate SameEmail(atCheck: Table, id: int, email: Option<string>) {
    id in atCheck.rows && email.Some? && NormEmail(email.value) == atCheck.rows[id].email
  }

  /** The sent email, once normalised, belongs to another record at pre-check time. */
  predicate PreCheckConflict(atCheck: Table, id: int, email: Option<string>) {
    id in atCheck.rows && email.Some? && NormEmail(email.value) != atCheck.rows[id].email
    && EmailHeldByOther(atCheck, NormEmail(email.value), id)
  }

  /** The values the record `id` would hold after the patch, computed from the table the write lands on. */
  function Patched(atWrite: Table, id: int, patch: StudentUpdate, email: Option<string>): Values
    requires id in atWrite.rows
  {
    Apply(ValuesOf(atWrite.rows[id]), UpdateAssignment(patch, PatchEmail(email)))
  }

  /** The database refuses the write with an integrity error (a NULL name or a taken email). */
  predicate IntegrityRefusal(atWrite: Table, id: int, patch: StudentUpdate, email: Option<string>) {
    && !NothingSet(patch, PatchEmail(email))
    && id in atWrite.rows
    && var v := Patched(atWrite, id, patch, email);
      FitsColumns(v) && (!NotNull(v) || EmailHeldByOther(atWrite, v.email.value, id))
  }

  /**
   * The write fails with an error the handler does not catch (500): the record is
   * gone by write time, or a sent value does not fit its column.
   */
  predicate UncaughtRefusal(atWrite: Table, id: int, patch: StudentUpdate, email: Option<string>) {
    && !NothingSet(patch, PatchEmail(email))
    && (id !in atWrite.rows || !FitsColumns(Patched(atWrite, id, patch, email)))
  }

  /**
   * The write step of POST /students: insert the (already normalised) payload and
   * answer 409 when the database refuses it with an integrity error, rolling back.
   */
  function InsertTranslated(atWrite: Table, p: StudentCreate, emailValid: bool, now: nat): (r: Response<StudentOut>)
    requires WellFormed(atWrite) && ValidCreate(p, emailValid)
    ensures r.body.Err? ==> r.table == atWrite
    ensures r.body == Err(Conflict) <==> |p.email| <= EmailMax && EmailHeldByOther(atWrite, p.email, -1)
    ensures r.body == Err(ServerError) <==> |p.email| > EmailMax
    ensures r.body.Err? ==> r.body.error == Conflict || r.body.error == ServerError
    ensures r.body.Ok? ==>
      && r.body.value == StudentOut(atWrite.nextId, p.firstName, p.lastName, p.email, p.phone, p.age, p.address)
      && atWrite.nextId !in atWrite.rows && atWrite.nextId in r.table.rows
      && r.table.rows == atWrite.rows[atWrite.nextId := r.table.rows[atWrite.nextId]]
      && ToOut(r.table.rows[atWrite.nextId]) == r.body.value
    ensures WellFormed(r.table)
  {
    var w := CreateStudent(atWrite, p, now);
    ValidPayloadInsert(atWrite, p, emailValid, now);
    if w.Ok? then Response(w.value.table, Ok(ToOut(w.value.row)))
    else if w.error == UniqueViolation || w.error == NotNullViolation then Response(atWrite, Err(Conflict))
    else Response(atWrite, Err(ServerError))
  }

  /**
   * POST /students once the admin key and the body have been accepted: the email
   * is stripped and lower-cased before any lookup or write; a record already
   * holding it at pre-check time gives 409, and so does the database refusing the
   * insert because the email was taken in the meantime. Every error leaves the
   * table as it was; success adds exactly one record.
   */
  function CreateValidated(atCheck: Table, atWrite: Table, payload: StudentCreate, emailValid: bool, now: nat)
    : (r: Response<StudentOut>)
    requires WellFormed(atCheck) && WellFormed(atWrite) && ValidCreate(payload, emailValid)
    ensures r.body.Err? ==> r.table == atWrite
    ensures r.body.Err? ==> r.body.error == Conflict || r.body.error == ServerError
    ensures var e := NormEmail(payload.email);
      r.body == Err(Conflict) <==>
        EmailHeldByOther(atCheck, e, -1) || (|e| <= EmailMax && EmailHeldByOther(atWrite, e, -1))
    ensures var e := NormEmail(payload.email);
      r.body == Err(ServerError) <==> !EmailHeldByOther(atCheck, e, -1) && |e| > EmailMax
    ensures r.body.Ok? ==>
      && r.body.value == StudentOut(atWrite.nextId, payload.firstName, payload.lastName,
                                    NormEmail(payload.email), payload.phone, payload.age, payload.address)
      && atWrite.nextId !in atWrite.rows && atWrite.nextId in r.table.rows
      && r.table.rows == atWrite.rows[atWrite.nextId := r.table.rows[atWrite.nextId]]
      && ToOut(r.table.rows[atWrite.nextId]) == r.body.value
    ensures WellFormed(r.table)
  {
    var e := NormEmail(payload.email);
    if GetStudentByEmail(atCheck, e).Some? then Response(atWrite, Err(Conflict))
    else InsertTranslated(atWrite, payload.(email := e), emailValid, now)
  }

  /** POST /students: 401 without the admin key, 422 for an invalid body, else the validated create. */
  function Create(
    authorized: bool, atCheck: Table, atWrite: Table,
    payload: StudentCreate, emailValid: bool, now: nat): (r: Response<StudentOut>)
    requires WellFormed(atCheck) && WellFormed(atWrite)
    ensures r.body == Err(Unauthorized) <==> !authorized
    ensures r.body == Err(Unprocessable) <==> authorized && !ValidCreate(payload, emailValid)
    ensures r.body.Err? ==> r.table == atWrite
    ensures authorized && ValidCreate(payload, emailValid) ==>
      r == CreateValidated(atCheck, atWrite, payload, emailValid, now)
    ensures WellFormed(r.table)
  {
    if !authorized then Response(atWrite, Err(Unauthorized))
    else if !ValidCreate(payload, emailValid) then Response(atWrite, Err(Unprocessable))
    else CreateValidated(atCheck, atWrite, payload, emailValid, now)
  }

  /**
   * With no concurrent writer the database never refuses a create the pre-check
   * let through: the create conflicts exactly when the normalised email is taken,
   * and succeeds exactly when it is free and fits its column.
   */
  lemma CreateWithoutRace(t: Table, payload: StudentCreate, emailValid: bool, now: nat)
    requires WellFormed(t) && ValidCreate(payload, emailValid)
    ensures (Create(true, t, t, payload, emailValid, now).body == Err(Conflict))
      <==> EmailHeldByOther(t, NormEmail(payload.email), -1)
    ensures Create(true, t, t, payload, emailValid, now).body.Ok?
      <==> !EmailHeldByOther(t, NormEmail(payload.email), -1) && |NormEmail(payload.email)| <= EmailMax
  {
  }

  /** GET /students/{id}. */
  function GetOne(t: Table, id: int): (r: Result<StudentOut, ApiError>)
    ensures r.Ok? <==> id in t.rows
    ensures r.Ok? ==> r.value == ToOut(t.rows[id])
    ensures r.Err? ==> r.error == NotFound
  {
    match GetStudent(t, id)
    case None => Err(NotFound)
    case Some(s) => Ok(ToOut(s))
  }

  /** The stored record after a successful write: the patch applied to the record as the write found it. */
  predicate PatchedRow(atWrite: Table, id: int, patch: StudentUpdate, email: Option<string>, now: nat, t: Table, out: StudentOut)
  {
    && id in atWrite.rows && id in t.rows
    && var prev := atWrite.rows[id];
    && var row := t.rows[id];
    && t == Table(atWrite.rows[id := row], atWrite.nextId)
    && out == ToOut(row)
    && row.id == id && row.createdAt == prev.createdAt && row.updatedAt == now
    && row.email == (if email.Some? then NormEmail(email.value) else prev.email)
    && Some(row.firstName) == (if patch.firstName.Set? then patch.firstName.value else Some(prev.firstName))
    && Some(row.lastName) == (if patch.lastName.Set? then patch.lastName.value else Some(prev.lastName))
    && row.phone == (if patch.phone.Set? then patch.phone.value else prev.phone)
    && row.age == (if patch.age.Set? then patch.age.value else prev.age)
    && row.address == (if patch.address.Set? then patch.address.value else prev.address)
  }

  /**
   * The write step of PATCH /students/{id}: apply the patch to the loaded record
   * and answer 409 when the database refuses it with an integrity error, rolling
   * back; a record gone by write time is an unhandled error (500).
   */
  function WriteTranslated(atWrite: Table, student: Student, patch: StudentUpdate, email: Option<string>, now: nat)
    : (r: Response<StudentOut>)
    requires WellFormed(atWrite)
    ensures r.body.Err? ==> r.table == atWrite
    ensures r.body.Err? ==> r.body.error == Conflict || r.body.error == ServerError
    ensures r.body == Err(Conflict) <==> IntegrityRefusal(atWrite, student.id, patch, email)
    ensures r.body == Err(ServerError) <==> UncaughtRefusal(atWrite, student.id, patch, email)
    ensures NothingSet(patch, PatchEmail(email)) ==> r == Response(atWrite, Ok(ToOut(student)))
    ensures r.body.Ok? && !NothingSet(patch, PatchEmail(email)) ==>
      PatchedRow(atWrite, student.id, patch, email, now, r.table, r.body.value)
    ensures WellFormed(r.table)
  {
    match UpdateStudent(atWrite, student, patch, PatchEmail(email), now)
    case Ok(w) => Response(w.table, Ok(ToOut(w.row)))
    case Err(UniqueViolation) => Response(atWrite, Err(Conflict))
    case Err(NotNullViolation) => Response(atWrite, Err(Conflict))
    case Err(_) => Response(atWrite, Err(ServerError))
  }

  /**
   * PATCH /students/{id} once the admin key and the body have been accepted, with
   * the patch email as an explicit optional input. A missing record gives 404. A
   * sent email equal, once normalised, to the stored one returns the record as it
   * is, without applying the other fields. A normalised email held by another
   * record gives 409, as does the database refusing the write with an integrity
   * error. Every error leaves the table as it was.
   */
  function UpdateValidated(atCheck: Table, atWrite: Table, id: int, patch: StudentUpdate, email: Option<string>, now: nat)
    : (r: Response<StudentOut>)
    requires WellFormed(atCheck) && WellFormed(atWrite)
    ensures r.body == Err(NotFound) <==> id !in atCheck.rows
    ensures r.body.Err? ==> r.table == atWrite
    ensures r.body.Err? ==> r.body.error in {NotFound, Conflict, ServerError}
    ensures SameEmail(atCheck, id, email) ==> r == Response(atWrite, Ok(ToOut(atCheck.rows[id])))
    ensures id in atCheck.rows && NothingSet(patch, PatchEmail(email)) ==>
      r == Response(atWrite, Ok(ToOut(atCheck.rows[id])))
    ensures id in atCheck.rows && !SameEmail(atCheck, id, email) ==>
      (r.body == Err(Conflict) <==>
         PreCheckConflict(atCheck, id, email) || IntegrityRefusal(atWrite, id, patch, email))
    ensures id in atCheck.rows && !SameEmail(atCheck, id, email) && !PreCheckConflict(atCheck, id, email) ==>
      (r.body == Err(ServerError) <==> UncaughtRefusal(atWrite, id, patch, email))
    ensures r.body.Ok? && !SameEmail(atCheck, id, email) && !NothingSet(patch, PatchEmail(email)) ==>
      PatchedRow(atWrite, id, patch, email, now, r.table, r.body.value)
    ensures WellFormed(r.table)
  {
    match GetStudent(atCheck, id)
    case None => Response(atWrite, Err(NotFound))
    case Some(student) =>
      if email.Some? && NormEmail(email.value) == student.email then
        Response(atWrite, Ok(ToOut(student)))
      else if email.Some? && GetStudentByEmail(atCheck, NormEmail(email.value)).Some?
              && GetStudentByEmail(atCheck, NormEmail(email.value)).value.id != student.id then
        Response(atWrite, Err(Conflict))
      else
        WriteTranslated(atWrite, student, patch, email, now)
  }

  /** PATCH /students/{id}: 401 without the admin key, 422 for an invalid body, else the validated update. */
  function Update(
    authorized: bool, atCheck: Table, atWrite: Table,
    id: int, patch: StudentUpdate, email: Option<string>, now: nat): (r: Response<StudentOut>)
    requires WellFormed(atCheck) && WellFormed(atWrite)
    ensures r.body == Err(Unauthorized) <==> !authorized
    ensures r.body == Err(Unprocessable) <==> authorized && !ValidUpdate(patch)
    ensures r.body.Err? ==> r.table == atWrite
    ensures authorized && ValidUpdate(patch) ==> r == UpdateValidated(atCheck, atWrite, id, patch, email, now)
    ensures WellFormed(r.table)
  {
    if !authorized then Response(atWrite, Err(Unauthorized))
    else if !ValidUpdate(patch) then Response(atWrite, Err(Unprocessable))
    else UpdateValidated(atCheck, atWrite, id, patch, email, now)
  }

  /** DELETE /students/{id}: 401 without the admin key, 404 for a missing record, else removes exactly it. */
  function Delete(authorized: bool, t: Table, id: int): (r: Response<Status>)
    requires WellFormed(t)
    ensures r.body == Err(Unauthorized) <==> !authorized
    ensures r.body == Err(NotFound) <==> authorized && id !in t.rows
    ensures r.body.Err? ==> r.body.error == Unauthorized || r.body.error == NotFound
    ensures authorized && id in t.rows ==> r.body == Ok(StatusDeleted)
    ensures r.body.Err? ==> r.table == t
    ensures r.body.Ok? ==>
      && r.body.value == StatusDeleted
      && r.table.nextId == t.nextId
      && (forall k :: k in r.table.rows <==> k in t.rows && k != id)
      && (forall k :: k in r.table.rows ==> r.table.rows[k] == t.rows[k])
    ensures WellFormed(r.table)
  {
    if !authorized then Response(t, Err(Unauthorized))
    else match GetStudent(t, id)
      case None => Response(t, Err(NotFound))
      case Some(student) => Response(DeleteStudent(t, student), Ok(StatusDeleted))
  }

  function Outs(rs: seq<Student>): (r: seq<StudentOut>)
    ensures |r| == |rs|
    ensures forall i :: 0 <= i < |rs| ==> r[i] == ToOut(rs[i])
  {
    seq(|rs|, i requires 0 <= i < |rs| => ToOut(rs[i]))
  }

  /** Response ids strictly decrease. */
  predicate NewestFirst(rs: seq<StudentOut>) {
    forall i, j :: 0 <= i < j < |rs| ==> rs[i].id > rs[j].id
  }

  /**
   * GET /students. `limit` must lie in 1..200 and `offset` be non-negative, else 422.
   * A non-empty `q` searches; an absent or empty one lists. Either way the page
   * holds at most `limit` records, newest first.
   */
  function List(t: Table, limit: int, offset: int, q: Option<string>): (r: Result<seq<StudentOut>, ApiError>)
    requires WellFormed(t)
    ensures r.Err? <==> !(MinLimit <= limit <= MaxLimit && offset >= 0)
    ensures r.Err? ==> r.error == Unprocessable
    ensures r.Ok? ==> |r.value| <= limit && NewestFirst(r.value)
    ensures r.Ok? && (q.None? || q.value == "") ==>
      r.value == Outs(Page(Ordered(t, Everything, Descending), limit, offset))
    ensures r.Ok? && q.Some? && q.value != "" ==>
      r.value == Outs(Page(Ordered(t, SearchFilter(q.value), Descending), limit, offset))
  {
    if !(MinLimit <= limit <= MaxLimit && offset >= 0) then Err(Unprocessable)
    else
      var rows := if q.Some? && q.value != "" then SearchStudents(t, q.value, limit, offset).value
                  else ListStudents(t, limit, offset).value;
      Ok(Outs(rows))
  }

  /**
   * GET /students as the query string reaches it: an omitted `limit` is 50 and an
   * omitted `offset` is 0; a value that is given is checked as in `List`.
   */
  function ListQuery(t: Table, limit: Option<int>, offset: Option<int>, q: Option<string>): (r: Result<seq<StudentOut>, ApiError>)
    requires WellFormed(t)
    ensures r.Err? <==>
      || (limit.Some? && !(MinLimit <= limit.value <= MaxLimit))
      || (offset.Some? && offset.value < 0)
    ensures r.Err? ==> r.error == Unprocessable
    ensures limit.None? && offset.None? ==> r.Ok? && |r.value| <= DefaultLimit
    ensures r.Ok? && (q.None? || q.value == "") ==>
      r.value == Outs(Page(Ordered(t, Everything, Descending), limit.GetOr(DefaultLimit), offset.GetOr(DefaultOffset)))
    ensures r.Ok? && q.Some? && q.value != "" ==>
      r.value == Outs(Page(Ordered(t, SearchFilter(q.value), Descending), limit.GetOr(DefaultLimit), offset.GetOr(DefaultOffset)))
  {
    List(t, limit.GetOr(DefaultLimit), offset.GetOr(DefaultOffset), q)
  }

  /** Neither name is explicitly sent as null. */
  predicate NoNullNames(patch: StudentUpdate) {
    patch.firstName != Set(None) && patch.lastName != Set(None)
  }

  /**
   * The pre-check's own-id exclusion never fires: a lookup for an email other than
   * the record's finds some record exactly when another record holds it.
   */
  lemma PreCheckNeverFindsSelf(t: Table, id: int, e: string)
    requires WellFormed(t) && id in t.rows && e != t.rows[id].email
    ensures GetStudentByEmail(t, e).Some? ==> GetStudentByEmail(t, e).value.id != id
    ensures GetStudentByEmail(t, e).Some? <==> EmailHeldByOther(t, e, id)
  {
  }

  /**
   * With no concurrent writer, and no name sent as null, the database never
   * refuses a write the pre-check let through: the update conflicts exactly when
   * the normalised email is held by another record.
   */
  lemma UpdateWithoutRace(t: Table, id: int, patch: StudentUpdate, email: Option<string>, now: nat)
    requires WellFormed(t) && id in t.rows && ValidUpdate(patch) && NoNullNames(patch)
    requires !SameEmail(t, id, email)
    ensures Update(true, t, t, id, patch, email, now).body == Err(Conflict) <==> PreCheckConflict(t, id, email)
  {
    if IntegrityRefusal(t, id, patch, email) {
      var v := Patched(t, id, patch, email);
      assert NotNull(v);
      var k :| k in t.rows && k != id && t.rows[k].email == v.email.value;
      assert email.Some?;
    }
  }

  /**
   * Explicitly sending a name as null passes validation, but the NOT NULL column
   * refuses it and the handler reports 409, like a taken email.
   */
  lemma NullNameIsConflict(atCheck: Table, atWrite: Table, id: int, patch: StudentUpdate, now: nat)
    requires WellFormed(atCheck) && WellFormed(atWrite) && id in atCheck.rows && id in atWrite.rows
    requires ValidUpdate(patch) && patch.firstName == Set(None)
    ensures Update(true, atCheck, atWrite, id, patch, None, now) == Response(atWrite, Err(Conflict))
  {
    var v := Patched(atWrite, id, patch, None);
    assert FitsColumns(ValuesOf(atWrite.rows[id]));
    assert FitsColumns(v);
    assert IntegrityRefusal(atWrite, id, patch, None);
  }

  /**
   * A sent email equal to the stored one after normalisation short-circuits the
   * update: a new first name sent along with it is not applied.
   */
  lemma SameEmailSkipsOtherFields(atCheck: Table, atWrite: Table, id: int, patch: StudentUpdate, email: string, now: nat)
    requires WellFormed(atCheck) && WellFormed(atWrite) && ValidUpdate(patch) && id in atCheck.rows
    requires patch.firstName.Set? && patch.firstName.value != Some(atCheck.rows[id].firstName)
    ensures NormEmail(email) == atCheck.rows[id].email ==>
      var r := Update(true, atCheck, atWrite, id, patch, Some(email), now);
      r.table == atWrite && r.body.Ok? && Some(r.body.value.firstName) != patch.firstName.value
  {
  }

  /**
   * A query of only whitespace is non-empty, so it searches; stripped it is the
   * pattern `%%`, which every record matches, so the page is the plain listing.
   */
  lemma BlankQueryListsAll(t: Table, limit: int, offset: int, q: string)
    requires WellFormed(t) && q != [] && AllSpace(q)
    ensures List(t, limit, offset, Some(q)) == List(t, limit, offset, None)
  {
    forall k | k in t.rows
      ensures Selects(SearchFilter(q), t.rows[k]) <==> Selects(Everything, t.rows[k])
    {
      BlankQueryMatchesAll(q, t.rows[k]);
    }
    SameSelectionSameRows(t, SearchFilter(q), Everything, Descending);
  }

  /**
   * Emails that differ only in case or surrounding whitespace are duplicates:
   * after one is created, creating the other is refused with 409.
   */
  lemma CaseVariantConflicts(
    t: Table, p: StudentCreate, emailValid: bool, now: nat,
    q: StudentCreate, emailValid': bool, later: nat)
    requires WellFormed(t) && ValidCreate(p, emailValid) && ValidCreate(q, emailValid')
    ensures var r := CreateValidated(t, t, p, emailValid, now);
      r.body.Ok? && NormEmail(q.email) == NormEmail(p.email) ==>
        CreateValidated(r.table, r.table, q, emailValid', later) == Response(r.table, Err(Conflict))
  {
    var r := CreateValidated(t, t, p, emailValid, now);
    if r.body.Ok? && NormEmail(q.email) == NormEmail(p.email) {
      assert r.table.rows[t.nextId].email == NormEmail(p.email);
      assert EmailHeldByOther(r.table, NormEmail(q.email), -1);
    }
  }
}

=== FILE: student_service.dfy ===
/**
 * The HTTP API's data-access layer: ORM reads and writes over the table.
 * List and search order by id, most recent first.
 */
module StudentService {
  import opened Optional
  import opened Text
  import opened Like
  import opened StudentTable
  import opened TableQuery
  import opened Schemas

  /** Adds one record built from every payload field. */
  function CreateStudent(t: Table, p: StudentCreate, now: nat): (r: Result<Written, StoreError>)
    ensures r.Ok? ==>
      && r.value.row.firstName == p.firstName && r.value.row.lastName == p.lastName
      && r.value.row.email == p.email && r.value.row.phone == p.phone
      && r.value.row.age == p.age && r.value.row.address == p.address
      && r.value.row.id == t.nextId
      && r.value.table.rows == t.rows[t.nextId := r.value.row]
      && r.value.table.nextId == t.nextId + 1
      && r.value.row.createdAt == now && r.value.row.updatedAt == now
    ensures r == Err(UniqueViolation) <==>
      FitsColumns(Apply(Defaults, CreateAssignment(p))) && EmailHeldByOther(t, p.email, -1)
    ensures r == Err(DataError) <==> !FitsColumns(Apply(Defaults, CreateAssignment(p)))
    ensures r.Err? ==> r.error == DataError || r.error == UniqueViolation
    ensures WellFormed(t) && r.Ok? ==> WellFormed(r.value.table)
  {
    Insert(t, CreateAssignment(p), now)
  }

  /**
   * A validated payload is refused by the insert only for an over-long email
   * (a data error) or for an email already stored (a uniqueness violation).
   */
  lemma ValidPayloadInsert(t: Table, p: StudentCreate, emailValid: bool, now: nat)
    requires ValidCreate(p, emailValid)
    ensures var r := CreateStudent(t, p, now);
      && (r.Err? <==> |p.email| > EmailMax || EmailHeldByOther(t, p.email, -1))
      && (r == Err(UniqueViolation) <==> |p.email| <= EmailMax && EmailHeldByOther(t, p.email, -1))
      && (r == Err(DataError) <==> |p.email| > EmailMax)
  {
    ValidCreateFitsColumns(p, emailValid);
  }

  function GetStudent(t: Table, id: int): (r: Option<Student>)
    ensures r.Some? <==> id in t.rows
    ensures r.Some? ==> r.value == t.rows[id]
  {
    Get(t, id)
  }

  /** The record whose email is exactly `email` (case-sensitive), if any. */
  function GetStudentByEmail(t: Table, email: string): (r: Option<Student>)
    requires WellFormed(t)
    ensures r.Some? ==> r.value.email == email && r.value.id in t.rows && t.rows[r.value.id] == r.value
    ensures r.None? <==> !EmailHeldByOther(t, email, -1)
  {
    var matches := Ordered(t, EmailIs(email), Ascending);
    if |matches| == 0 then
      assert forall k :: k in t.rows ==> t.rows[k].email != email by {
        forall k | k in t.rows ensures t.rows[k].email != email {
          assert t.rows[k] !in matches;
        }
      }
      None
    else
      assert matches[0] in matches;
      Some(matches[0])
  }

  /** Under the table invariant the lookup finds the one record holding the email. */
  lemma GetStudentByEmailIsUnique(t: Table, email: string, k: nat)
    requires WellFormed(t) && k in t.rows && t.rows[k].email == email
    ensures GetStudentByEmail(t, email) == Some(t.rows[k])
  {
  }

  /** All records, highest id first, then OFFSET and LIMIT. */
  function ListStudents(t: Table, limit: int, offset: int): (r: Result<seq<Student>, StoreError>)
    requires WellFormed(t)
    ensures r.Err? <==> limit < 0 || offset < 0
    ensures r.Ok? ==> |r.value| <= limit
    ensures r.Ok? ==> forall s :: s in r.value ==> s.id in t.rows && t.rows[s.id] == s
    ensures r.Ok? ==> IdOrdered(r.value, Descending)
    ensures r.Ok? ==> r.value == Page(Ordered(t, Everything, Descending), limit, offset)
  {
    Select(t, Everything, Descending, limit, offset)
  }

  /** With no offset and a limit that covers the table, the listing is every record, newest first. */
  lemma ListStudentsWholeTable(t: Table, limit: int)
    requires WellFormed(t) && limit >= |t.rows|
    ensures ListStudents(t, limit, 0) == Ok(Ordered(t, Everything, Descending))
    ensures forall k :: k in t.rows ==> t.rows[k] in ListStudents(t, limit, 0).value
  {
    WholeTablePage(t, Everything, Descending, limit);
  }

  /** The filter a search query selects with: `%q%` over the five text columns, after stripping `q`. */
  function SearchFilter(q: string): Filter {
    AnyTextLike(ContainsPattern(Strip(q)))
  }

  /** Records where any text column contains the stripped query, highest id first, then OFFSET and LIMIT. */
  function SearchStudents(t: Table, q: string, limit: int, offset: int): (r: Result<seq<Student>, StoreError>)
    requires WellFormed(t)
    ensures r.Err? <==> limit < 0 || offset < 0
    ensures r.Ok? ==> |r.value| <= limit
    ensures r.Ok? ==> forall s :: s in r.value ==> s.id in t.rows && t.rows[s.id] == s && Selects(SearchFilter(q), s)
    ensures r.Ok? ==> IdOrdered(r.value, Descending)
    ensures r.Ok? ==> r.value == Page(Ordered(t, SearchFilter(q), Descending), limit, offset)
  {
    Select(t, SearchFilter(q), Descending, limit, offset)
  }

  /** A column matches a wildcard-free query exactly when it contains it, ignoring case. */
  predicate HasText(s: Option<string>, q: string) {
    s.Some? && Contains(Lower(s.value), Lower(q))
  }

  lemma ColumnMatch(s: Option<string>, q: string)
    requires Literal(q)
    ensures NullableILike(s, ContainsPattern(q)) <==> HasText(s, q)
  {
    if s.Some? {
      ILikeIsContainment(s.value, q);
    }
  }

  /** The five-column filter over a wildcard-free text is case-insensitive containment in some column. */
  lemma AnyTextIsContainment(w: string, s: Student)
    requires Literal(w)
    ensures Selects(AnyTextLike(ContainsPattern(w)), s) <==>
      || HasText(Some(s.firstName), w) || HasText(Some(s.lastName), w) || HasText(Some(s.email), w)
      || HasText(s.phone, w) || HasText(s.address, w)
  {
    ColumnMatch(Some(s.firstName), w);
    ColumnMatch(Some(s.lastName), w);
    ColumnMatch(Some(s.email), w);
    ColumnMatch(s.phone, w);
    ColumnMatch(s.address, w);
  }

  /**
   * For a query whose stripped text holds no `%`, `_` or `\`, a record is selected
   * exactly when its first name, last name, email, phone or address contains that
   * text ignoring case; a NULL phone or address never matches.
   */
  lemma SearchIsContainment(q: string, s: Student)
    requires Literal(Strip(q))
    ensures var w := Strip(q);
      Selects(SearchFilter(q), s) <==>
        || HasText(Some(s.firstName), w) || HasText(Some(s.lastName), w) || HasText(Some(s.email), w)
        || HasText(s.phone, w) || HasText(s.address, w)
  {
    AnyTextIsContainment(Strip(q), s);
  }

  /** A query of only whitespace strips to `%%`, which every record matches. */
  lemma BlankQueryMatchesAll(q: string, s: Student)
    requires AllSpace(q)
    ensures Selects(SearchFilter(q), s)
  {
    assert Strip(q) == [];
    assert Lower(ContainsPattern(Strip(q))) == "%%";
    PercentMatchesAll(Lower(s.firstName));
    assert LikeMatch(Lower(s.firstName), "%%"[1..]);
  }

  /** The columns a partial update writes: exactly the fields sent, among the six whitelisted ones. */
  function UpdateAssignment(u: StudentUpdate, email: Field<Option<string>>): Assignment {
    Assignment(u.firstName, u.lastName, email, u.phone, u.age, u.address)
  }

  predicate NothingSet(u: StudentUpdate, email: Field<Option<string>>) {
    u.firstName.Unset? && u.lastName.Unset? && email.Unset? && u.phone.Unset? && u.age.Unset? && u.address.Unset?
  }

  /**
   * A patch the update schema accepts, applied to a stored row, breaks a column
   * bound only through the email, and leaves a NOT NULL column empty only by an
   * explicit null.
   */
  lemma ValidPatchFits(s: Student, u: StudentUpdate, email: Field<Option<string>>)
    requires FitsColumns(ValuesOf(s)) && ValidUpdate(u)
    ensures var v := Apply(ValuesOf(s), UpdateAssignment(u, email));
      FitsColumns(v) <==> email.Unset? || FitsText(email.value, EmailMax)
    ensures var v := Apply(ValuesOf(s), UpdateAssignment(u, email));
      NotNull(v) <==> u.firstName != Set(None) && u.lastName != Set(None) && email != Set(None)
  {
  }

  /**
   * Applies a partial update to the loaded `student`. With no field sent it returns
   * the record as loaded and writes nothing. Otherwise only the sent fields change
   * (a field sent as null becomes NULL), `updated_at` becomes `now`, and the id and
   * every other record stay as they were.
   */
  function UpdateStudent(t: Table, student: Student, u: StudentUpdate, email: Field<Option<string>>, now: nat)
    : (r: Result<Written, StoreError>)
    ensures NothingSet(u, email) ==> r == Ok(Written(t, student))
    ensures r == Err(NoRow) <==> !NothingSet(u, email) && student.id !in t.rows
    ensures !NothingSet(u, email) && student.id in t.rows ==>
      var v := Apply(ValuesOf(t.rows[student.id]), UpdateAssignment(u, email));
      && (r.Err? <==> !FitsColumns(v) || !NotNull(v) || EmailHeldByOther(t, v.email.value, student.id))
      && (r == Err(UniqueViolation) <==> FitsColumns(v) && NotNull(v) && EmailHeldByOther(t, v.email.value, student.id))
      && (r == Err(DataError) <==> !FitsColumns(v))
      && (r == Err(NotNullViolation) <==> FitsColumns(v) && !NotNull(v))
    ensures !NothingSet(u, email) && r.Ok? ==>
      var prev := t.rows[student.id];
      && r.value.row.id == student.id
      && r.value.table == Table(t.rows[student.id := r.value.row], t.nextId)
      && Some(r.value.row.firstName) == (if u.firstName.Set? then u.firstName.value else Some(prev.firstName))
      && Some(r.value.row.lastName) == (if u.lastName.Set? then u.lastName.value else Some(prev.lastName))
      && Some(r.value.row.email) == (if email.Set? then email.value else Some(prev.email))
      && r.value.row.phone == (if u.phone.Set? then u.phone.value else prev.phone)
      && r.value.row.age == (if u.age.Set? then u.age.value else prev.age)
      && r.value.row.address == (if u.address.Set? then u.address.value else prev.address)
      && r.value.row.createdAt == prev.createdAt && r.value.row.updatedAt == now
    ensures !NothingSet(u, email) && student.id in t.rows && (u.firstName == Set(None) || u.lastName == Set(None)) ==>
      r.Err? && r.error != UniqueViolation
    ensures WellFormed(t) && r.Ok? ==> WellFormed(r.value.table)
  {
    if NothingSet(u, email) then Ok(Written(t, student))
    else Update(t, student.id, UpdateAssignment(u, email), Some(now))
  }

  /** Removes exactly the given record. */
  function DeleteStudent(t: Table, student: Student): (r: Table)
    ensures r.rows == t.rows - {student.id}
    ensures r.nextId == t.nextId
    ensures WellFormed(t) ==> WellFormed(r)
  {
    Delete(t, student.id).table
  }
}

=== FILE: student_table.dfy ===
/**
 * The `students` table: the record every front-end reads and writes, the column
 * limits of its declaration, and the database's own checks on every write.
 * The database is the final arbiter of the one-row-per-email rule; the writers'
 * pre-checks are advisory.
 */
module StudentTable {
  import opened Optional

  const FirstNameMax: nat := 80
  const LastNameMax: nat := 80
  const EmailMax: nat := 255
  const PhoneMax: nat := 32
  const AddressMax: nat := 255

  /** Range of the 32-bit `Integer` column type. */
  const IntMin: int := -0x8000_0000
  const IntMax: int := 0x7FFF_FFFF

  /** One row. The timestamps are ticks of an abstract clock. */
  datatype Student = Student(
    id: nat,
    firstName: string,
    lastName: string,
    email: string,
    phone: Option<string>,
    age: Option<int>,
    address: Option<string>,
    createdAt: nat,
    updatedAt: nat)

  /** The six data columns of a row as a write presents them; `None` is SQL NULL. */
  datatype Values = Values(
    firstName: Option<string>,
    lastName: Option<string>,
    email: Option<string>,
    phone: Option<string>,
    age: Option<int>,
    address: Option<string>)

  /**
   * The data columns a write names. An `Unset` column keeps its stored value on
   * UPDATE and takes its default (NULL) on INSERT.
   */
  datatype Assignment = Assignment(
    firstName: Field<Option<string>>,
    lastName: Field<Option<string>>,
    email: Field<Option<string>>,
    phone: Field<Option<string>>,
    age: Field<Option<int>>,
    address: Field<Option<string>>)

  /** The rows by primary key, and the next value of the id sequence. */
  datatype Table = Table(rows: map<nat, Student>, nextId: nat)

  /** A freshly created table: no rows, and the id sequence starts at 1. */
  const EmptyTable: Table := Table(map[], 1)

  /** What the store refuses a write with. `NoRow`: an UPDATE matched no row. */
  datatype StoreError = NoRow | DataError | NotNullViolation | UniqueViolation

  /** A successful write: the table after it and the row it returned. */
  datatype Written = Written(table: Table, row: Student)

  /** The outcome of DELETE: the table after it and the number of rows removed. */
  datatype Deleted = Deleted(table: Table, count: nat)

  function ValuesOf(s: Student): Values {
    Values(Some(s.firstName), Some(s.lastName), Some(s.email), s.phone, s.age, s.address)
  }

  /** The column defaults a fresh row starts from. */
  const Defaults: Values := Values(None, None, None, None, None, None)

  function Pick<T>(f: Field<T>, keep: T): T {
    match f
    case Unset => keep
    case Set(v) => v
  }

  function Apply(v: Values, a: Assignment): Values {
    Values(
      Pick(a.firstName, v.firstName),
      Pick(a.lastName, v.lastName),
      Pick(a.email, v.email),
      Pick(a.phone, v.phone),
      Pick(a.age, v.age),
      Pick(a.address, v.address))
  }

  predicate FitsText(s: Option<string>, max: nat) {
    s.None? || |s.value| <= max
  }

  /** Every value fits its column: VARCHAR lengths and the 32-bit integer range. */
  predicate FitsColumns(v: Values) {
    && FitsText(v.firstName, FirstNameMax)
    && FitsText(v.lastName, LastNameMax)
    && FitsText(v.email, EmailMax)
    && FitsText(v.phone, PhoneMax)
    && (v.age.None? || IntMin <= v.age.value <= IntMax)
    && FitsText(v.address, AddressMax)
  }

  /** The NOT NULL columns are filled. */
  predicate NotNull(v: Values) {
    v.firstName.Some? && v.lastName.Some? && v.email.Some?
  }

  /** Some row other than the one with key `self` has email `e`. */
  predicate EmailHeldByOther(t: Table, e: string, self: int) {
    exists k | k in t.rows :: k != self && t.rows[k].email == e
  }

  /** The write a row with values `v` and key `self` would be refused with, checked in the database's order. */
  function Violation(t: Table, v: Values, self: int): Option<StoreError> {
    if !FitsColumns(v) then Some(DataError)
    else if !NotNull(v) then Some(NotNullViolation)
    else if EmailHeldByOther(t, v.email.value, self) then Some(UniqueViolation)
    else None
  }

  function RowOf(id: nat, v: Values, createdAt: nat, updatedAt: nat): Student
    requires NotNull(v)
  {
    Student(id, v.firstName.value, v.lastName.value, v.email.value, v.phone, v.age, v.address, createdAt, updatedAt)
  }

  predicate UniqueEmails(rows: map<nat, Student>) {
    forall a, b :: a in rows && b in rows && rows[a].email == rows[b].email ==> a == b
  }

  /**
   * The table's invariant: each row is stored under its own id, below the next
   * sequence value, fits its columns, and no two rows share an email.
   */
  predicate WellFormed(t: Table) {
    && (forall k :: k in t.rows ==> t.rows[k].id == k && k < t.nextId && FitsColumns(ValuesOf(t.rows[k])))
    && UniqueEmails(t.rows)
  }

  lemma EmptyTableWellFormed()
    ensures WellFormed(EmptyTable)
  {
  }

  /**
   * INSERT of one row: unnamed columns take NULL, the id is the next sequence value,
   * and both timestamps are `now`. The insert is refused exactly when a value does
   * not fit, a NOT NULL column is empty, or the email is already stored.
   */
  function Insert(t: Table, a: Assignment, now: nat): (r: Result<Written, StoreError>)
    ensures var v := Apply(Defaults, a);
      r.Err? <==> !FitsColumns(v) || !NotNull(v) || EmailHeldByOther(t, v.email.value, -1)
    ensures var v := Apply(Defaults, a);
      r == Err(UniqueViolation) <==> FitsColumns(v) && NotNull(v) && EmailHeldByOther(t, v.email.value, -1)
    ensures r == Err(DataError) <==> !FitsColumns(Apply(Defaults, a))
    ensures var v := Apply(Defaults, a);
      r == Err(NotNullViolation) <==> FitsColumns(v) && !NotNull(v)
    ensures r.Ok? ==>
      && r.value.row.id == t.nextId
      && r.value.table == Table(t.rows[t.nextId := r.value.row], t.nextId + 1)
      && ValuesOf(r.value.row) == Apply(Defaults, a)
      && r.value.row.createdAt == now && r.value.row.updatedAt == now
      && forall k :: k in t.rows ==> t.rows[k].email != r.value.row.email
    ensures WellFormed(t) && r.Ok? ==> r.value.row.id !in t.rows && WellFormed(r.value.table)
  {
    var v := Apply(Defaults, a);
    match Violation(t, v, -1)
    case Some(e) => Err(e)
    case None =>
      var row := RowOf(t.nextId, v, now, now);
      Ok(Written(Table(t.rows[t.nextId := row], t.nextId + 1), row))
  }

  /**
   * UPDATE of the row with key `id`: named columns change, the others keep their
   * value, and `updated_at` is set to `refresh` when one is given. An absent key
   * matches no row; otherwise the update is refused exactly when the new values
   * break a column limit, NOT NULL, or the email rule against the other rows.
   */
  function Update(t: Table, id: int, a: Assignment, refresh: Option<nat>): (r: Result<Written, StoreError>)
    ensures r == Err(NoRow) <==> id !in t.rows
    ensures id in t.rows ==> var v := Apply(ValuesOf(t.rows[id]), a);
      (r.Err? <==> !FitsColumns(v) || !NotNull(v) || EmailHeldByOther(t, v.email.value, id))
    ensures id in t.rows ==> var v := Apply(ValuesOf(t.rows[id]), a);
      (r == Err(UniqueViolation) <==> FitsColumns(v) && NotNull(v) && EmailHeldByOther(t, v.email.value, id))
    ensures r == Err(DataError) <==> id in t.rows && !FitsColumns(Apply(ValuesOf(t.rows[id]), a))
    ensures r == Err(NotNullViolation) <==>
      id in t.rows && FitsColumns(Apply(ValuesOf(t.rows[id]), a)) && !NotNull(Apply(ValuesOf(t.rows[id]), a))
    ensures r.Ok? ==>
      && id in t.rows && r.value.row.id == id
      && r.value.table == Table(t.rows[id := r.value.row], t.nextId)
      && ValuesOf(r.value.row) == Apply(ValuesOf(t.rows[id]), a)
      && r.value.row.createdAt == t.rows[id].createdAt
      && r.value.row.updatedAt == refresh.GetOr(t.rows[id].updatedAt)
    ensures WellFormed(t) && r.Ok? ==> WellFormed(r.value.table)
  {
    if id !in t.rows then Err(NoRow)
    else
      var prev := t.rows[id];
      var v := Apply(ValuesOf(prev), a);
      match Violation(t, v, id)
      case Some(e) => Err(e)
      case None =>
        var row := RowOf(id, v, prev.createdAt, refresh.GetOr(prev.updatedAt));
        Ok(Written(Table(t.rows[id := row], t.nextId), row))
  }

  /** DELETE by key: removes the row if present and reports how many rows went. */
  function Delete(t: Table, id: int): (r: Deleted)
    ensures r.count == (if id in t.rows then 1 else 0)
    ensures r.table.nextId == t.nextId
    ensures forall k :: k in r.table.rows <==> k in t.rows && k != id
    ensures forall k :: k in r.table.rows ==> r.table.rows[k] == t.rows[k]
    ensures WellFormed(t) ==> WellFormed(r.table)
  {
    if id in t.rows then
      Deleted(Table(t.rows - {id as nat}, t.nextId), 1)
    else
      Deleted(t, 0)
  }

  /** SELECT by primary key. */
  function Get(t: Table, id: int): (r: Option<Student>)
    ensures r.Some? <==> id in t.rows
    ensures r.Some? ==> r.value == t.rows[id]
    ensures WellFormed(t) && r.Some? ==> r.value.id == id
  {
    if id in t.rows then Some(t.rows[id]) else None
  }
}

=== FILE: table_query.dfy ===
/**
 * The read side of the table: a WHERE filter, ORDER BY id in either direction,
 * and LIMIT / OFFSET, as both front-ends issue them.
 */
module TableQuery {
  import opened Optional
  import opened Like
  import opened StudentTable

  /** The WHERE clauses the front-ends use. */
  datatype Filter =
    | Everything
    | EmailIs(email: string)              // email = e (exact, case-sensitive)
    | NameOrEmailLike(pattern: string)    // first/last name or email ILIKE pattern
    | AnyTextLike(pattern: string)        // ... or phone or address ILIKE pattern

  datatype Direction = Ascending | Descending

  /** ILIKE on a nullable column: NULL never satisfies a WHERE clause. */
  predicate NullableILike(s: Option<string>, pattern: string) {
    s.Some? && ILike(s.value, pattern)
  }

  predicate Selects(f: Filter, s: Student) {
    match f
    case Everything => true
    case EmailIs(e) => s.email == e
    case NameOrEmailLike(p) =>
      NullableILike(Some(s.firstName), p) || NullableILike(Some(s.lastName), p) || NullableILike(Some(s.email), p)
    case AnyTextLike(p) =>
      || NullableILike(Some(s.firstName), p) || NullableILike(Some(s.lastName), p) || NullableILike(Some(s.email), p)
      || NullableILike(s.phone, p) || NullableILike(s.address, p)
  }

  predicate Increasing(ids: seq<nat>) {
    forall i, j :: 0 <= i < j < |ids| ==> ids[i] < ids[j]
  }

  predicate Decreasing(ids: seq<nat>) {
    forall i, j :: 0 <= i < j < |ids| ==> ids[i] > ids[j]
  }

  /** The selected keys below `n`, smallest first. */
  function AscendingIds(rows: map<nat, Student>, n: nat, f: Filter): (ids: seq<nat>)
    ensures Increasing(ids)
    ensures forall k :: k in ids <==> k < n && k in rows && Selects(f, rows[k])
  {
    if n == 0 then []
    else
      var rest := AscendingIds(rows, n - 1, f);
      if n - 1 in rows && Selects(f, rows[n - 1]) then
        assert forall i :: 0 <= i < |rest| ==> rest[i] in rest;
        rest + [n - 1]
      else rest
  }

  function Reverse<T>(s: seq<T>): (r: seq<T>)
    ensures |r| == |s|
    ensures forall i :: 0 <= i < |s| ==> r[i] == s[|s| - 1 - i]
  {
    seq(|s|, i requires 0 <= i < |s| => s[|s| - 1 - i])
  }

  /** Reversing an increasing key list gives a decreasing one with the same keys. */
  lemma ReverseFlipsOrder(ids: seq<nat>)
    requires Increasing(ids)
    ensures Decreasing(Reverse(ids))
    ensures forall k :: k in Reverse(ids) <==> k in ids
  {
    var r := Reverse(ids);
    forall k | k in ids
      ensures k in r
    {
      var i :| 0 <= i < |ids| && ids[i] == k;
      assert r[|ids| - 1 - i] == k;
    }
  }

  /** `ORDER BY id` or `ORDER BY id DESC` over the selected keys. */
  function SortedIds(rows: map<nat, Student>, n: nat, f: Filter, d: Direction): (ids: seq<nat>)
    ensures d == Ascending ==> Increasing(ids)
    ensures d == Descending ==> Decreasing(ids)
    ensures forall k :: k in ids <==> k < n && k in rows && Selects(f, rows[k])
  {
    var asc := AscendingIds(rows, n, f);
    if d == Ascending then asc
    else
      ReverseFlipsOrder(asc);
      Reverse(asc)
  }

  /** The rows stored under `ids`, in that order. */
  function RowsAt(rows: map<nat, Student>, ids: seq<nat>): (r: seq<Student>)
    requires forall k :: k in ids ==> k in rows
    ensures |r| == |ids|
    ensures forall i :: 0 <= i < |ids| ==> r[i] == rows[ids[i]]
  {
    seq(|ids|, i requires 0 <= i < |ids| => rows[ids[i]])
  }

  /** Under the table invariant a row is listed exactly when its key is. */
  lemma RowsAtOfKeys(t: Table, ids: seq<nat>)
    requires WellFormed(t) && forall k :: k in ids ==> k in t.rows
    ensures forall k :: k in t.rows ==> (t.rows[k] in RowsAt(t.rows, ids) <==> k in ids)
    ensures forall s :: s in RowsAt(t.rows, ids) ==> s.id in ids && t.rows[s.id] == s
  {
    var r := RowsAt(t.rows, ids);
    forall k | k in t.rows && t.rows[k] in r
      ensures k in ids
    {
      var i :| 0 <= i < |r| && r[i] == t.rows[k];
      assert t.rows[ids[i]].id == ids[i];
    }
    forall k | k in ids
      ensures t.rows[k] in r
    {
      var i :| 0 <= i < |ids| && ids[i] == k;
      assert r[i] == t.rows[k];
    }
  }

  /** Rows fetched by ordered keys carry their keys as ids, so they come out in the same order. */
  lemma RowsAtKeepsOrder(t: Table, ids: seq<nat>, d: Direction)
    requires WellFormed(t) && forall k :: k in ids ==> k in t.rows
    requires d == Ascending ==> Increasing(ids)
    requires d == Descending ==> Decreasing(ids)
    ensures var r := RowsAt(t.rows, ids);
      forall i, j :: 0 <= i < j < |r| ==> if d == Ascending then r[i].id < r[j].id else r[i].id > r[j].id
  {
    var r := RowsAt(t.rows, ids);
    forall i | 0 <= i < |r|
      ensures r[i].id == ids[i]
    {
      assert ids[i] in ids;
    }
  }

  /**
   * `SELECT * FROM students WHERE f ORDER BY id [DESC]`: exactly the selected rows
   * of the table, each once, in id order.
   */
  function Ordered(t: Table, f: Filter, d: Direction): (r: seq<Student>)
    requires WellFormed(t)
    ensures forall s :: s in r ==> s.id in t.rows && t.rows[s.id] == s && Selects(f, s)
    ensures forall k :: k in t.rows ==> (t.rows[k] in r <==> Selects(f, t.rows[k]))
    ensures forall i, j :: 0 <= i < j < |r| ==>
      if d == Ascending then r[i].id < r[j].id else r[i].id > r[j].id
  {
    var ids := SortedIds(t.rows, t.nextId, f, d);
    RowsAtOfKeys(t, ids);
    RowsAtKeepsOrder(t, ids, d);
    RowsAt(t.rows, ids)
  }

  /** Filters that agree on every stored row select the same keys. */
  lemma {:induction false} SameSelectionSameIds(rows: map<nat, Student>, n: nat, f: Filter, g: Filter)
    requires forall k :: k in rows ==> (Selects(f, rows[k]) <==> Selects(g, rows[k]))
    ensures AscendingIds(rows, n, f) == AscendingIds(rows, n, g)
  {
    if n > 0 {
      SameSelectionSameIds(rows, n - 1, f, g);
    }
  }

  /** ... and so list the same rows in the same order. */
  lemma SameSelectionSameRows(t: Table, f: Filter, g: Filter, d: Direction)
    requires WellFormed(t)
    requires forall k :: k in t.rows ==> (Selects(f, t.rows[k]) <==> Selects(g, t.rows[k]))
    ensures Ordered(t, f, d) == Ordered(t, g, d)
  {
    SameSelectionSameIds(t.rows, t.nextId, f, g);
  }

  /** Fetching keys in reverse order fetches the rows in reverse order. */
  lemma RowsAtReverse(rows: map<nat, Student>, ids: seq<nat>)
    requires forall k :: k in ids ==> k in rows
    ensures RowsAt(rows, Reverse(ids)) == Reverse(RowsAt(rows, ids))
  {
    assert forall k :: k in Reverse(ids) ==> k in ids;
  }

  /** The newest-first listing is the oldest-first listing reversed. */
  lemma DescendingIsReversedAscending(t: Table, f: Filter)
    requires WellFormed(t)
    ensures Ordered(t, f, Descending) == Reverse(Ordered(t, f, Ascending))
  {
    var asc := AscendingIds(t.rows, t.nextId, f);
    assert SortedIds(t.rows, t.nextId, f, Descending) == Reverse(asc);
    RowsAtReverse(t.rows, asc);
  }

  function Min(a: nat, b: nat): nat {
    if a <= b then a else b
  }

  /** `LIMIT limit OFFSET offset` on an already ordered result. */
  function Page<T>(xs: seq<T>, limit: nat, offset: nat): (r: seq<T>)
    ensures |r| == if offset >= |xs| then 0 else Min(limit, |xs| - offset)
    ensures forall i :: 0 <= i < |r| ==> r[i] == xs[offset + i]
  {
    if offset >= |xs| then []
    else
      var rest := xs[offset..];
      if limit >= |rest| then rest else rest[..limit]
  }

  /** Ids strictly increase (ascending) or strictly decrease (descending) along `rs`. */
  predicate IdOrdered(rs: seq<Student>, d: Direction) {
    forall i, j :: 0 <= i < j < |rs| ==>
      if d == Ascending then rs[i].id < rs[j].id else rs[i].id > rs[j].id
  }

  lemma PageKeepsOrder(xs: seq<Student>, d: Direction, limit: nat, offset: nat)
    requires IdOrdered(xs, d)
    ensures IdOrdered(Page(xs, limit, offset), d)
  {
    var page := Page(xs, limit, offset);
    forall i, j | 0 <= i < j < |page|
      ensures if d == Ascending then page[i].id < page[j].id else page[i].id > page[j].id
    {
      assert page[i] == xs[offset + i] && page[j] == xs[offset + j];
    }
  }

  /**
   * `SELECT ... WHERE f ORDER BY id [DESC] LIMIT limit OFFSET offset`. A negative
   * LIMIT or OFFSET is a data exception in PostgreSQL.
   */
  function Select(t: Table, f: Filter, d: Direction, limit: int, offset: int): (r: Result<seq<Student>, StoreError>)
    requires WellFormed(t)
    ensures r.Err? <==> limit < 0 || offset < 0
    ensures r.Err? ==> r.error == DataError
    ensures r.Ok? ==> |r.value| <= limit
    ensures r.Ok? ==> forall i :: 0 <= i < |r.value| ==>
      offset + i < |Ordered(t, f, d)| && r.value[i] == Ordered(t, f, d)[offset + i]
    ensures r.Ok? ==> forall s :: s in r.value ==> s.id in t.rows && t.rows[s.id] == s && Selects(f, s)
    ensures r.Ok? ==> IdOrdered(r.value, d)
    ensures r.Ok? ==> r.value == Page(Ordered(t, f, d), limit, offset)
  {
    if limit < 0 || offset < 0 then Err(DataError)
    else
      var all := Ordered(t, f, d);
      assert IdOrdered(all, d);
      PageKeepsOrder(all, d, limit, offset);
      Ok(Page(all, limit, offset))
  }

  /** A query returns no more rows than the table holds. */
  lemma OrderedFits(t: Table, f: Filter, d: Direction)
    requires WellFormed(t)
    ensures |Ordered(t, f, d)| <= |t.rows|
  {
    var r := Ordered(t, f, d);
    assert forall i, j :: 0 <= i < j < |r| ==> r[i].id != r[j].id;
    var keys := set i | 0 <= i < |r| :: r[i].id;
    assert keys <= t.rows.Keys;
    SizeOfDistinct(r, keys);
    SubsetSize(keys, t.rows.Keys);
  }

  /** With room for every row, the page holds every selected row. */
  lemma WholeTablePage(t: Table, f: Filter, d: Direction, limit: int)
    requires WellFormed(t) && limit >= |t.rows|
    ensures Select(t, f, d, limit, 0) == Ok(Ordered(t, f, d))
  {
    var r := Ordered(t, f, d);
    OrderedFits(t, f, d);
    assert Page(r, limit, 0) == r;
  }

  lemma SubsetSize<T>(a: set<T>, b: set<T>)
    requires a <= b
    ensures |a| <= |b|
  {
    assert b == a + (b - a);
  }

  lemma {:induction false} SizeOfDistinct(r: seq<Student>, keys: set<nat>)
    requires forall i, j :: 0 <= i < j < |r| ==> r[i].id != r[j].id
    requires keys == set i | 0 <= i < |r| :: r[i].id
    ensures |keys| == |r|
    decreases |r|
  {
    if |r| > 0 {
      var last := r[|r| - 1];
      var init := r[..|r| - 1];
      var rest := set i | 0 <= i < |init| :: init[i].id;
      SizeOfDistinct(init, rest);
      assert keys == rest + {last.id};
      assert last.id !in rest;
    }
  }
}

=== FILE: text.dfy ===
/**
 * String primitives the normalisers and the search are built from:
 * Python's `str.strip()` and `str.lower()` restricted to ASCII, and substring containment.
 */
module Text {

  /** The ASCII characters for which Python's `str.isspace()` holds. */
  predicate IsSpace(c: char) {
    c == ' ' || ('\t' <= c <= '\r') || ('\U{1C}' <= c <= '\U{1F}')
  }

  predicate AllSpace(s: string) {
    forall i :: 0 <= i < |s| ==> IsSpace(s[i])
  }

  /** No leading and no trailing whitespace. */
  predicate Stripped(s: string) {
    |s| == 0 || (!IsSpace(s[0]) && !IsSpace(s[|s| - 1]))
  }

  /** The first position at or after `i` that does not hold whitespace, or `|s|`. */
  function SkipForward(s: string, i: nat): (j: nat)
    requires i <= |s|
    ensures i <= j <= |s|
    ensures forall k :: i <= k < j ==> IsSpace(s[k])
    ensures j == |s| || !IsSpace(s[j])
    decreases |s| - i
  {
    if i < |s| && IsSpace(s[i]) then SkipForward(s, i + 1) else i
  }

  /** The position just after the last non-whitespace character in `s[lo..j]`, or `lo`. */
  function SkipBackward(s: string, lo: nat, j: nat): (k: nat)
    requires lo <= j <= |s|
    ensures lo <= k <= j
    ensures forall m :: k <= m < j ==> IsSpace(s[m])
    ensures k == lo || !IsSpace(s[k - 1])
    decreases j - lo
  {
    if lo < j && IsSpace(s[j - 1]) then SkipBackward(s, lo, j - 1) else j
  }

  /** `s` is `r` surrounded by whitespace, with `i` whitespace characters in front. */
  predicate Pads(s: string, r: string, i: int) {
    0 <= i <= |s| - |r| && s[i..i + |r|] == r && AllSpace(s[..i]) && AllSpace(s[i + |r|..])
  }

  /** The infix between the two scans is padded by whitespace and has none at its ends. */
  lemma ScannedInfix(s: string, i: nat, j: nat)
    requires i <= j <= |s|
    requires forall k :: 0 <= k < i ==> IsSpace(s[k])
    requires forall m :: j <= m < |s| ==> IsSpace(s[m])
    requires i == j || (!IsSpace(s[i]) && !IsSpace(s[j - 1]))
    ensures Stripped(s[i..j]) && Pads(s, s[i..j], i)
    ensures s[i..j] == [] <==> AllSpace(s)
  {
    assert forall k :: 0 <= k < i ==> s[..i][k] == s[k];
    assert forall m :: 0 <= m < |s| - j ==> s[j..][m] == s[j + m];
    if i < j {
      assert s[i..j][0] == s[i];
    }
  }

  /** Python's `s.strip()`: the longest infix with no surrounding whitespace. */
  function Strip(s: string): (r: string)
    ensures Stripped(r)
    ensures exists i :: Pads(s, r, i)
    ensures Pads(s, r, SkipForward(s, 0))
    ensures r == [] <==> AllSpace(s)
  {
    var i := SkipForward(s, 0);
    var j := SkipBackward(s, i, |s|);
    ScannedInfix(s, i, j);
    s[i..j]
  }

  lemma StripOfStripped(s: string)
    requires Stripped(s)
    ensures Strip(s) == s
  {
  }

  function LowerChar(c: char): (d: char)
    ensures 'A' <= c <= 'Z' ==> 'a' <= d <= 'z' && d as int - c as int == 32
    ensures !('A' <= c <= 'Z') ==> d == c
  {
    if 'A' <= c <= 'Z' then (c as int + 32) as char else c
  }

  /** Python's `s.lower()` on ASCII letters; every other character is kept. */
  function Lower(s: string): (r: string)
    ensures |r| == |s|
    ensures forall i :: 0 <= i < |s| ==> r[i] == LowerChar(s[i])
  {
    seq(|s|, i requires 0 <= i < |s| => LowerChar(s[i]))
  }

  /** No ASCII upper-case letter occurs in `s`. */
  predicate IsLower(s: string) {
    forall i :: 0 <= i < |s| ==> !('A' <= s[i] <= 'Z')
  }

  lemma LowerIsLower(s: string)
    ensures IsLower(Lower(s))
    ensures IsLower(s) ==> Lower(s) == s
  {
  }

  lemma LowerKeepsStripped(s: string)
    requires Stripped(s)
    ensures Stripped(Lower(s))
  {
  }

  /** Lower-casing keeps the padding: whitespace is not a letter. */
  lemma LowerKeepsPads(s: string, r: string, i: int)
    requires Pads(s, r, i)
    ensures Pads(Lower(s), Lower(r), i)
  {
    var ls := Lower(s);
    assert ls[i..i + |r|] == Lower(r) by {
      forall k | 0 <= k < |r|
        ensures ls[i..i + |r|][k] == Lower(r)[k]
      {
        assert s[i..i + |r|][k] == r[k];
      }
    }
    forall k | 0 <= k < i
      ensures IsSpace(ls[..i][k])
    {
      assert s[..i][k] == s[k];
    }
    var j := i + |r|;
    forall k | 0 <= k < |s| - j
      ensures IsSpace(ls[j..][k])
    {
      assert s[j..][k] == s[j + k];
    }
  }

  lemma LowerConcat(a: string, b: string)
    ensures Lower(a + b) == Lower(a) + Lower(b)
  {
  }

  /** `q` occurs in `s` starting at index `i`. */
  predicate OccursAt(s: string, q: string, i: int) {
    0 <= i && i + |q| <= |s| && s[i..i + |q|] == q
  }

  predicate Contains(s: string, q: string) {
    exists i | 0 <= i <= |s| :: OccursAt(s, q, i)
  }
}
